=== FILE: README.md ===
# FastTree, modelled in Dafny

FastTree is a PHP helper that takes a flat list of records and reads it as a
forest. Each record has an `id` and a parent field, `pid` unless configured
otherwise, and 0 names the root. The helper answers structural queries:

- the direct children of a node;
- all of a node's descendants;
- a node's parent;
- the chain of a node's ancestors.

It also renders the forest in four textual forms. Each form fills `@field`
placeholders of a caller's template with PHP's `strtr`:

- an indented option list;
- a nested list;
- an admin menu;
- a two-template option list.

Finally, it builds an indented nested array and flattens that array back
into a list.

This project models that core as pure functions over immutable data:

- `PhpValues`: PHP's truthiness of strings and the decimal rendering of integers.
- `Substitution`: `strtr` with an array argument. At each position the longest
  key matching there is replaced, and replaced text is never scanned again.
  A greedy parse of the input into pieces characterises it independently.
- `Records`:
  - the record type and the engine's configuration, with `init`;
  - how a record names its parent;
  - how a record becomes a `@field` map;
  - how the `selected`/`disabled` arguments mark a record;
  - the acyclicity precondition the recursive operations need.
- `Lookup`: `getChild` (an id-keyed array, so records sharing an id collapse)
  and `getParent`.
- `Closure`: `getChildren`, `getParents` and `getParentsIds`.
- `Connectors`: the spacer and prefix arithmetic that draws the tree
  connectors (│ ├ └ and `&nbsp;`).
- `TreeArray`: `getTreeArray` and `getTreeList`.
- `Templates`: the placeholder map shared by the renderers.
- `OptionRender`: `getTree`.
- `NestedRender`: `getTreeUl` and `getTreeMenu`.
- `SpecialRender`: `getTreeSpecial`.
- `Examples`: small concrete record sets that pin the behaviour down:
  - collapsing of duplicate ids;
  - where the self record lands;
  - longest-key substitution;
  - the menu's unguarded marker.

Every recursive operation requires `Acyclic(data)`: a rank on identifiers
must strictly decrease from each parent to each record naming it. The PHP
code recurses without bound when a query reaches a cycle. `Acyclic` is a
condition on the whole record set, so it is stronger than what a single
query needs: a cycle that a query never reaches would not stop the PHP
code, but the model excludes such record sets.

## Model

| member | source | states |
|---|---|---|
| Records.InitCompose | src/FastTree.php:71-79 | a second `init` replaces the record set and every option it passes; an option it leaves null keeps the value the first call set; the connector glyphs survive both calls |
| Records.MarkerMeaning | src/FastTree.php:242-243 | for an array argument an id is marked exactly when it occurs in the array, guard or not; for a scalar, exactly when the scalar is the id and, under the guard, is not 0 |
| Records.GuardMattersOnlyForZero | src/FastTree.php:312-313 | the menu's missing truth test on the id argument changes the outcome exactly for the scalar argument 0 and the id 0 |
| Lookup.GetChild | src/FastTree.php:86-96 | every entry is a record of the set that has an id and names `x` as parent; entries have distinct ids; every such record's id has an entry; the result is empty exactly when `x` has no child |
| Lookup.GetChildIsScan | src/FastTree.php:86-96 | with unique ids, the children are exactly the matching records in scan order |
| Lookup.GetChildFirstSeen | src/FastTree.php:89-94 | each entry's id was first seen at some child of `x`, and the entries are ordered by those first positions, strictly increasing: a repeated id keeps the place of its first child |
| Lookup.GetChildLastWins | src/FastTree.php:93 | when several children share an id, the entry kept is the last of them in scan order |
| Lookup.GetParent | src/FastTree.php:143-165 | at most one record; when the first record with id `x` has a non-zero parent that some record carries, the result is the first such record; a non-empty result always has that justification |
| Closure.ChildrenUnder | src/FastTree.php:104-120 | a record is returned exactly when a chain of parent links leads from `x` down to it, or, with `withSelf`, when it is a record of `x` itself |
| Closure.ChildrenOnce | src/FastTree.php:104-120 | with an acyclic parent relation and unique ids, no record appears twice in getChildren(`x`): each descendant is listed exactly once |
| Closure.ChildrenUnfold | src/FastTree.php:111-113 | the descendants are, child by child in scan order, each child of `x` followed by that child's own descendants (a pre-order walk) |
| Closure.ChildrenViaGetChild | src/FastTree.php:104-120 | with unique ids, getChildren is the pre-order walk over exactly the children getChild returns |
| Closure.WithSelfAddsSelf | src/FastTree.php:114-116 | `withSelf` only adds records: removing the id-`x` records gives the result without self, and the removed records are exactly the set's id-`x` records, in order |
| Closure.ChildrenWithSelfUnfold | src/FastTree.php:106-118 | with `withSelf`, the scan visits the children of `x` and the records of `x` in record order; a child contributes itself followed by its descendants, a self record contributes itself at that position |
| Closure.GetParents | src/FastTree.php:173-194 | every element is the first record with its id; each element is the parent of the next; the first has no further parent; every later element has a non-zero parent, so the walk stops at the first parent of 0 (:189); the chain is non-empty when `x` has a parent that some record carries; with `withSelf` the last is the record of `x`, without it the last is the parent of `x`, and a non-empty chain without self means the first record of `x` has a non-zero parent |
| Closure.ParentsWithSelf | src/FastTree.php:173-194 | getParents with `withSelf` is getParents without it followed by the first record of `x`, whenever `x` exists |
| Closure.ParentsEndWithParent | src/FastTree.php:143-194 | the ancestor chain without self is empty exactly when getParent is, and otherwise ends with getParent's record |
| Closure.GetParentsIds | src/FastTree.php:202-210 | the ids of getParents, one per record and in the same order; each id is the parent of the next record; with `withSelf` the last id is `x` |
| Connectors.ChildPrefixGrows | src/FastTree.php:250 | both kinds of children's prefix extend the parent's prefix and stay PHP-true once it is |
| Connectors.SpecialPrefixDiffers | src/FastTree.php:355-362 | with a non-empty token, getTreeSpecial indents differently from getTree exactly below a last child under a true prefix |
| Substitution.GreedyIsStrtr | src/FastTree.php:248 | a greedy parse (longest key at each position, literal characters elsewhere) spells the input, and its output is the substitution's result |
| Substitution.TokenizeIsGreedy | src/FastTree.php:248 | every text has a greedy parse |
| Substitution.GreedyUnique | src/FastTree.php:248 | the greedy parse of a text is unique |
| Substitution.StrtrWholeKey | src/FastTree.php:285 | a key standing alone becomes its value, and the value is not scanned again |
| Substitution.StrtrPlain | src/FastTree.php:282 | under `@`-keys, a text without `@` passes through unchanged |
| Templates.Fields | src/FastTree.php:244-247 | every field `f` becomes placeholder `@f`; an added field wins over a record field of the same name; every placeholder comes from one of the two |
| TreeArray.TreeArrayEntries | src/FastTree.php:387-413 | one entry per child getChild returns, holding that record in the same order; each spacer is empty under a false prefix, else the prefix with the corner for the last child and the branch for the others; each `childList` is the tree array of that child under the prefix it hands down (:407): the prefix plus the spacer token under a false prefix, plus two spacer tokens under the last child, plus the vertical glyph and the spacer token under any other |
| TreeArray.TreeArrayIndents | src/FastTree.php:397-407 | under a true prefix every spacer in the nested array extends it, and the subtree of node `i` extends that child's prefix |
| TreeArray.ListRow | src/FastTree.php:424-427 | a flattened row has `hasChild` "1" exactly when the node has children, `field` is the spacer, a space and the old value, `childList` is gone, and every other field is unchanged |
| TreeArray.TreeListLength | src/FastTree.php:420-436 | with non-zero ids, the flattened list holds one row per node of the nested array, for any `field`, `id` included |
| TreeArray.TreeListSkipsFalsyId | src/FastTree.php:428-433 | for a `field` other than `id` (and a `pidName` other than `id`), a node without an id or with id 0 is left out, but its children are still flattened in its place |
| TreeArray.TreeArrayCount | src/FastTree.php:387-413 | with unique ids (0 or missing ids allowed), the nested array holds one entry per record getChildren(`x`) returns |
| TreeArray.TreeListIsPreorder | src/FastTree.php:420-436 | with unique non-zero ids and a `field` other than `id`, flattening getTreeArray(`x`) lists the ids of getChildren(`x`) in the same order, one row per descendant |
| OptionRender.GetTreeIsTreeOf | src/FastTree.php:223-255 | getTree renders, in order, one option per node of getTreeArray(`x`), for any prefix and with the same spacers |
| OptionRender.TopTemplateChoice | src/FastTree.php:248 | the top template is used exactly for a record whose parent reads as 0 or that has children, and only when it is PHP-true; the chosen template is filled with the record's fields; stated for a `pidName` other than `id`, `selected`, `disabled` and `spacer`, the keys the row overwrites |
| OptionRender.GetTreeSpacers | src/FastTree.php:241 | with a PHP-false top template, the template `@spacer` renders the spacers of getTreeArray in pre-order |
| OptionRender.PlainTemplateOncePerDescendant | src/FastTree.php:223-255 | with unique ids and a PHP-false top template, a template without placeholders appears once per record getChildren(`x`) returns |
| NestedRender.GetTreeUlIsUlOf | src/FastTree.php:268-289 | getTreeUl is the nested rendering of the forest getTreeArray(`x`) describes |
| NestedRender.GetTreeUlPlain | src/FastTree.php:268-289 | a template without placeholders appears once per direct child: nested lists go into `@childlist` only |
| NestedRender.UlChildListAlone | src/FastTree.php:283-285 | when no record placeholder is a prefix of `@childlist`, a lone `@childlist` becomes the children wrapped in the tag, or nothing when there are none |
| NestedRender.GetTreeMenuIsMenuOf | src/FastTree.php:302-337 | getTreeMenu is the menu rendering of the forest getTreeArray(`x`) describes |
| NestedRender.MenuChildList | src/FastTree.php:323-324 | the submenu is filled in exactly for a PHP-true rendering of the children |
| NestedRender.MenuUrl | src/FastTree.php:327-328 | the link is the record's url unless the item has a submenu or no url; the tab marker is joined by `&` or `?` as the url already has a query or not |
| NestedRender.MenuCaretBadge | src/FastTree.php:329-330 | the caret marks a submenu unless the record has a PHP-true badge; the badge is the record's own or empty |
| NestedRender.MenuPlaceholderAlone | src/FastTree.php:318-333 | a lone second-pass placeholder that the first pass did not consume renders as its second-pass value |
| SpecialRender.SpecialTemplateChoice | src/FastTree.php:370 | the second template is used exactly for a disabled record |
| SpecialRender.SpecialNoDisabled | src/FastTree.php:364-370 | when the disabled argument is PHP-false the second template never matters |
| SpecialRender.SpecialIsOptionList | src/FastTree.php:348-378 | with an empty spacer token and the same template twice, getTreeSpecial is getTree without a top template, for any prefix |
| SpecialRender.SpecialArrayEntries | src/FastTree.php:352-374 | the array getTreeSpecial walks holds getChild's records in order with getTreeArray's spacers; a child's own entries are indented by the prefix plus the token under the last child or a false prefix, and by the prefix, the vertical glyph and the token otherwise |
| SpecialRender.GetTreeSpecialIsSpecialOf | src/FastTree.php:348-378 | getTreeSpecial renders that array entry by entry in pre-order, for any two templates |
| SpecialRender.GetTreeSpecialSpacers | src/FastTree.php:357-363 | the template `@spacer` renders the spacers of that array in pre-order, so its last-sibling prefix rule shows in the output |
| PhpValues.IntRoundTrip | src/FastTree.php:244 | the decimal text of an integer reads back as that integer, so id text in a rendered row stands for the id |
| Examples.DuplicateIdsCollapse | src/FastTree.php:93 | two children with the same id: getChild keeps one entry, the later record |
| Examples.SelfAtScanPosition | src/FastTree.php:111-116 | with `withSelf`, the self record appears at its scan position, after an earlier child |
| Examples.LongestKeyWins | src/FastTree.php:248 | of two keys matching at one position, the longer one is replaced |
| Examples.MenuMarksZero | src/FastTree.php:312-313 | the menu marks id 0 as selected under the scalar argument 0, which the guarded renderers do not |

## Left out

- The constructor and `instance()` (src/FastTree.php:27-46): a singleton holder with options the core never reads.
- `getChildrenIds` (src/FastTree.php:128-136): its `array_column('id')` call omits the array argument, so it fails at run time for any non-empty result. It is not modelled; `Closure.GetParentsIds` shows what a well-formed id projection states.
- Comma-separated strings as `selectedIds`/`disabledIds`: only arrays and integer scalars are modelled (`IdArg`). A scalar goes through PHP's single-element `explode` path. The renderers' default argument is the empty string `''`. It is outside `IdArg`. Under PHP 8 comparison it marks nothing, exactly like `IdList([])`.
- The parent field: a record's parent value is read once, into `Record.pid`, when the record set is built. `pidName` only names that field when a record is turned back into a row (`Row`), so changing `pidName` through `Init` does not change what the traversals read. The PHP code reads the field named by the current `pidName` on every access.
- Text-valued or numeric-string identifiers: identifiers and parent values are integers, compared with `==`. PHP's loose comparison of other strings is not modelled.
- Numeric field names: PHP's `array_merge` renumbers integer keys. The model keeps fields by name.
- OptionRender.GetTree: the root test `$value["@pid"] == 0` is modelled by `RootRef` with PHP 8 semantics on the integer text the row holds. A text parent field such as "00" is outside the integer model.
- `getTreeMenu`'s `$deeplevel` parameter: it is passed down and never read.
- Key order of a row: rows are maps, so the field order of the PHP array is not modelled. Inside the renderers the order is never observable through `strtr`, but the rows of getTreeArray and getTreeList are returned to callers, who can see it (for example `childList` is the last key of a getTreeArray row, and `hasChild` of a getTreeList row).
- `hasChild` in getTreeList rows: it is the text "1"/"0" instead of an integer, since every row value is text.
- Cyclic record sets: every recursive operation requires `Acyclic`, since the PHP code recurses without bound when a query reaches a cycle. `Acyclic` is a whole-set condition, stronger than what each query needs: a record set with a cycle that a query never reaches (for example `getParents` of a root, or `getChildren` of a node outside the cycle) is handled by the PHP code but excluded by the model.
- HTML: templates, tags and attributes are plain text, and nothing is escaped or parsed.
- Closure.GetChildren: carries no contract of its own. Its properties are stated by `ChildrenUnder`, `ChildrenUnfold`, `ChildrenViaGetChild`, `WithSelfAddsSelf` and `ChildrenWithSelfUnfold`.
- TreeArray.GetTreeList: carries no contract of its own. Its properties are stated by `ListRow`, `TreeListLength`, `TreeListSkipsFalsyId` and `TreeListIsPreorder`.
- TreeArray.GetTreeArray: its own contract states only the entry count. What each entry holds, including the exact prefix each child's `childList` is built with, is stated by `TreeArrayEntries`; `TreeArrayIndents` and `TreeArrayCount` state the indentation and the entry count at every depth.
- OptionRender.GetTree, NestedRender.GetTreeUl, NestedRender.GetTreeMenu and SpecialRender.GetTreeSpecial: their own contracts state only the empty case. Their structure is stated by the lemmas relating each to the nested array and by the per-item lemmas.
- Substitution.Strtr: carries no contract of its own. Its meaning is the greedy-parse characterisation (`GreedyIsStrtr`, `TokenizeIsGreedy`, `GreedyUnique`).
- Lookup.GetParent: the second scan of the PHP code does not skip records without an id. A record without an id reads as null there, which never equals a non-zero parent, so skipping it changes nothing.

=== FILE: closure.dfy ===
/** Closure layer: every descendant of a node in pre-order, and the
    root-first chain of its ancestors (src/FastTree.php, getChildren,
    getParents and getParentsIds). */
module Closure {
  import opened Records
  import opened Lookup

  /** `getChildren` from the `i`-th record on: a record naming `x` as its
      parent contributes itself followed by its own descendants (found
      without self); otherwise, with `withSelf`, a record whose identifier
      is `x` contributes itself. */
  function ChildrenFrom(data: seq<Record>, x: int, withSelf: bool, i: nat): seq<Record>
    requires Acyclic(data)
    requires i <= |data|
    decreases Rank(data)(x), |data| - i
  {
    if i == |data| then []
    else
      var v := data[i];
      var here :=
        if v.id.None? then []
        else if IsChildOf(v, x) then
          ChildBelow(data, v, x);
          [v] + ChildrenFrom(data, v.id.value, false, 0)
        else if withSelf && IdsEqual(v.id.value, x) then [v]
        else [];
      here + ChildrenFrom(data, x, withSelf, i + 1)
  }

  /** Every descendant of `x` in pre-order, with the records of `x` itself
      when `withSelf` is set. */
  function GetChildren(data: seq<Record>, x: int, withSelf: bool): seq<Record>
    requires Acyclic(data)
  {
    ChildrenFrom(data, x, withSelf, 0)
  }

  /** `r` is a record of the set whose identifier ranks strictly below `x`,
      or, when `self` is allowed, a record of `x` itself. */
  ghost predicate BelowInRank(data: seq<Record>, r: Record, x: int, self: bool)
    requires Acyclic(data)
  {
    r in data && r.id.Some? && (Rank(data)(r.id.value) < Rank(data)(x) || (self && r.id.value == x))
  }

  lemma {:induction false} ChildrenFromUnder(data: seq<Record>, x: int, withSelf: bool, i: nat)
    requires Acyclic(data)
    requires i <= |data|
    ensures forall r :: r in ChildrenFrom(data, x, withSelf, i) ==> BelowInRank(data, r, x, withSelf)
    decreases Rank(data)(x), |data| - i
  {
    if i < |data| {
      var v := data[i];
      ChildrenFromUnder(data, x, withSelf, i + 1);
      if v.id.Some? && IsChildOf(v, x) {
        ChildBelow(data, v, x);
        ChildrenFromUnder(data, v.id.value, false, 0);
        var sub := ChildrenFrom(data, v.id.value, false, 0);
        assert ChildrenFrom(data, x, withSelf, i) == ([v] + sub) + ChildrenFrom(data, x, withSelf, i + 1);
      }
    }
  }

  /** `path` is a chain of parent links down from `x`: its first record
      names `x` as its parent, and each later record names the one before. */
  ghost predicate ChainFrom(data: seq<Record>, path: seq<Record>, x: int) {
    && path != []
    && (forall k :: 0 <= k < |path| ==> path[k] in data)
    && IsChildOf(path[0], x)
    && (forall k :: 0 <= k < |path| - 1 ==> path[k].id.Some? && IsChildOf(path[k + 1], path[k].id.value))
  }

  /** `r` descends from `x`: some chain of parent links leads from `x` down
      to `r`. */
  ghost predicate Descends(data: seq<Record>, r: Record, x: int) {
    exists path :: ChainFrom(data, path, x) && path[|path| - 1] == r
  }

  lemma ChainCons(data: seq<Record>, v: Record, path: seq<Record>, x: int)
    requires v in data && IsChildOf(v, x)
    requires ChainFrom(data, path, v.id.value)
    ensures ChainFrom(data, [v] + path, x)
    ensures ([v] + path)[|[v] + path| - 1] == path[|path| - 1]
  {
    var p := [v] + path;
    forall k | 0 <= k < |p| - 1 ensures p[k].id.Some? && IsChildOf(p[k + 1], p[k].id.value) {
      if k > 0 { assert p[k] == path[k - 1] && p[k + 1] == path[k]; }
    }
  }

  lemma {:induction false} ChildrenFromDescend(data: seq<Record>, x: int, withSelf: bool, i: nat)
    requires Acyclic(data)
    requires i <= |data|
    ensures forall r :: r in ChildrenFrom(data, x, withSelf, i) ==>
              Descends(data, r, x) || (withSelf && r in data && HasId(r, x))
    decreases Rank(data)(x), |data| - i
  {
    if i < |data| {
      var v := data[i];
      ChildrenFromDescend(data, x, withSelf, i + 1);
      if v.id.Some? && IsChildOf(v, x) {
        ChildBelow(data, v, x);
        ChildrenFromDescend(data, v.id.value, false, 0);
        var sub := ChildrenFrom(data, v.id.value, false, 0);
        assert ChildrenFrom(data, x, withSelf, i) == ([v] + sub) + ChildrenFrom(data, x, withSelf, i + 1);
        assert ChainFrom(data, [v], x);
        forall r | r in sub ensures Descends(data, r, x) {
          var path :| ChainFrom(data, path, v.id.value) && path[|path| - 1] == r;
          ChainCons(data, v, path, x);
        }
      }
    }
  }

  /** Every record of `x`'s family the scan reaches from position `i` on is
      in the result from `i`: a child with its own descendants, and, with
      `withSelf`, a record of `x` that is not also its child. */
  lemma {:induction false} ChildrenFromHas(data: seq<Record>, x: int, withSelf: bool, i: nat, j: nat)
    requires Acyclic(data)
    requires i <= j < |data|
    ensures IsChildOf(data[j], x) ==> data[j] in ChildrenFrom(data, x, withSelf, i)
    ensures IsChildOf(data[j], x) ==>
              forall r :: r in ChildrenFrom(data, data[j].id.value, false, 0) ==> r in ChildrenFrom(data, x, withSelf, i)
    ensures withSelf && HasId(data[j], x) && !IsChildOf(data[j], x) ==> data[j] in ChildrenFrom(data, x, withSelf, i)
    decreases j - i
  {
    var v := data[i];
    var rest := ChildrenFrom(data, x, withSelf, i + 1);
    if v.id.Some? && IsChildOf(v, x) {
      ChildBelow(data, v, x);
      var sub := ChildrenFrom(data, v.id.value, false, 0);
      assert ChildrenFrom(data, x, withSelf, i) == ([v] + sub) + rest;
    } else if v.id.Some? && withSelf && IdsEqual(v.id.value, x) {
      assert ChildrenFrom(data, x, withSelf, i) == [v] + rest;
    } else {
      assert ChildrenFrom(data, x, withSelf, i) == rest;
    }
    if i < j {
      ChildrenFromHas(data, x, withSelf, i + 1, j);
    }
  }

  lemma {:induction false} ChainReturned(data: seq<Record>, path: seq<Record>, x: int, withSelf: bool)
    requires Acyclic(data)
    requires ChainFrom(data, path, x)
    ensures path[|path| - 1] in GetChildren(data, x, withSelf)
    decreases |path|
  {
    var v := path[0];
    var j :| 0 <= j < |data| && data[j] == v;
    ChildrenFromHas(data, x, withSelf, 0, j);
    if |path| > 1 {
      var tail := path[1..];
      forall k | 0 <= k < |tail| - 1 ensures tail[k].id.Some? && IsChildOf(tail[k + 1], tail[k].id.value) {
        assert tail[k] == path[k + 1] && tail[k + 1] == path[k + 2];
      }
      assert ChainFrom(data, tail, v.id.value) by {
        assert tail[0] == path[1];
        assert forall k :: 0 <= k < |tail| ==> tail[k] == path[k + 1];
      }
      ChainReturned(data, tail, v.id.value, false);
      assert tail[|tail| - 1] == path[|path| - 1];
    }
  }

  /** getChildren returns exactly the descendants of `x` (the records some
      chain of parent links leads to from `x`), together with, under
      `withSelf`, the records of `x` itself. */
  lemma ChildrenUnder(data: seq<Record>, x: int, withSelf: bool)
    requires Acyclic(data)
    ensures forall r :: r in GetChildren(data, x, withSelf) <==>
              Descends(data, r, x) || (withSelf && r in data && HasId(r, x))
  {
    ChildrenFromDescend(data, x, withSelf, 0);
    forall r | Descends(data, r, x) ensures r in GetChildren(data, x, withSelf) {
      var path :| ChainFrom(data, path, x) && path[|path| - 1] == r;
      ChainReturned(data, path, x, withSelf);
    }
    forall r | withSelf && r in data && HasId(r, x) ensures r in GetChildren(data, x, withSelf) {
      var j :| 0 <= j < |data| && data[j] == r;
      if IsChildOf(r, x) {
        ChildBelow(data, r, x);
        assert false;
      }
      ChildrenFromHas(data, x, withSelf, 0, j);
    }
  }

  /** Reference definition of the pre-order: each child followed by its own
      descendants, the children taken in the order given. */
  function Descend(data: seq<Record>, ks: seq<Record>): seq<Record>
    requires Acyclic(data)
    requires forall k :: k in ks ==> k.id.Some?
    decreases |ks|
  {
    if ks == [] then []
    else [ks[0]] + GetChildren(data, ks[0].id.value, false) + Descend(data, ks[1..])
  }

  lemma {:induction false} ChildrenFromUnfold(data: seq<Record>, x: int, i: nat)
    requires Acyclic(data)
    requires i <= |data|
    ensures ChildrenFrom(data, x, false, i) == Descend(data, ScanChildren(data[i..], x))
    decreases |data| - i
  {
    if i < |data| {
      ChildrenFromUnfold(data, x, i + 1);
      var v := data[i];
      var tail := ScanChildren(data[i + 1..], x);
      assert data[i..][0] == v && data[i..][1..] == data[i + 1..];
      assert ScanChildren(data[i..], x) == (if IsChildOf(v, x) then [v] else []) + tail;
      if IsChildOf(v, x) {
        var ks := [v] + tail;
        assert ks[0] == v && ks[1..] == tail;
        assert Descend(data, ks) == [v] + GetChildren(data, v.id.value, false) + Descend(data, tail);
      } else {
        assert ChildrenFrom(data, x, false, i) == ChildrenFrom(data, x, false, i + 1);
        assert ScanChildren(data[i..], x) == tail;
      }
    } else {
      assert data[i..] == [];
    }
  }

  /** The descendants of `x` are, child by child in scan order, each child
      of `x` followed by that child's own descendants. */
  lemma ChildrenUnfold(data: seq<Record>, x: int)
    requires Acyclic(data)
    ensures GetChildren(data, x, false) == Descend(data, ScanChildren(data, x))
  {
    ChildrenFromUnfold(data, x, 0);
    assert data[0..] == data;
  }

  /** The same traversal over the lookup layer: with unique identifiers the
      descendants are built from exactly the children getChild returns. */
  lemma ChildrenViaGetChild(data: seq<Record>, x: int)
    requires Acyclic(data) && UniqueIds(data)
    ensures GetChildren(data, x, false) == Descend(data, GetChild(data, x))
  {
    ChildrenUnfold(data, x);
    GetChildIsScan(data, x);
  }

  // ---------------------------------------------------------------------
  // Each descendant once

  /** The records of `s` are pairwise different. */
  ghost predicate NoRepeats(s: seq<Record>) {
    forall i, j :: 0 <= i < j < |s| ==> s[i] != s[j]
  }

  lemma NoRepeatsAppend(a: seq<Record>, b: seq<Record>)
    requires NoRepeats(a) && NoRepeats(b)
    requires forall r :: r in a ==> r !in b
    ensures NoRepeats(a + b)
  {
    var c := a + b;
    forall i, j | 0 <= i < j < |c| ensures c[i] != c[j] {
      if i < |a| && j >= |a| {
        assert c[i] in a && c[j] == b[j - |a|];
      } else if i >= |a| {
        assert c[i] == b[i - |a|] && c[j] == b[j - |a|];
      }
    }
  }

  /** The child of `x` a record hangs under: the parent links are followed
      up, through the first record carrying each parent, until the parent
      is `x` (the record itself when the links leave the set first). */
  ghost function TopBelow(data: seq<Record>, r: Record, x: int): Record
    requires Acyclic(data)
    decreases if r in data && r.id.Some? then |data| - Rank(data)(r.id.value) else 0
  {
    if r !in data || r.id.None? || ParentOf(r) == x then r
    else
      var i := FirstWithId(data, ParentOf(r));
      if i == |data| then r
      else
        ChildBelow(data, r, ParentOf(r));
        TopBelow(data, data[i], x)
  }

  lemma ChainPrefix(data: seq<Record>, path: seq<Record>, x: int, m: nat)
    requires ChainFrom(data, path, x) && 1 <= m <= |path|
    ensures ChainFrom(data, path[..m], x)
  {
    var p := path[..m];
    assert p[0] == path[0];
    forall k | 0 <= k < |p| - 1 ensures p[k].id.Some? && IsChildOf(p[k + 1], p[k].id.value) {
      assert p[k] == path[k] && p[k + 1] == path[k + 1];
    }
  }

  /** Along a chain down from `x`, the last record ranks below `x`. */
  lemma {:induction false} ChainRank(data: seq<Record>, path: seq<Record>, x: int)
    requires Acyclic(data) && ChainFrom(data, path, x)
    ensures path[|path| - 1].id.Some? && Rank(data)(path[|path| - 1].id.value) < Rank(data)(x)
    decreases |path|
  {
    var n := |path|;
    if n == 1 {
      ChildBelow(data, path[0], x);
    } else {
      ChainPrefix(data, path, x, n - 1);
      ChainRank(data, path[..n - 1], x);
      var q := path[n - 2];
      assert path[..n - 1][n - 2] == q;
      ChildBelow(data, path[n - 1], q.id.value);
    }
  }

  /** With unique identifiers the links up from the end of a chain lead
      back to the chain's first record. */
  lemma {:induction false} ChainTop(data: seq<Record>, path: seq<Record>, x: int)
    requires Acyclic(data) && UniqueIds(data) && ChainFrom(data, path, x)
    ensures TopBelow(data, path[|path| - 1], x) == path[0]
    decreases |path|
  {
    var n := |path|;
    var r := path[n - 1];
    if n > 1 {
      var q := path[n - 2];
      ChainPrefix(data, path, x, n - 1);
      var front := path[..n - 1];
      assert front[n - 2] == q && front[0] == path[0];
      ChainRank(data, front, x);
      assert ParentOf(r) == q.id.value != x;
      var i := FirstWithId(data, q.id.value);
      var j :| 0 <= j < |data| && data[j] == q;
      assert HasId(data[j], q.id.value);
      assert i <= j && data[i].id == data[j].id;
      assert data[i] == q;
      ChainTop(data, front, x);
    }
  }

  /** A child of `x` and everything below it hang under that child. */
  lemma BlockTop(data: seq<Record>, x: int, v: Record, r: Record)
    requires Acyclic(data) && UniqueIds(data)
    requires v in data && IsChildOf(v, x)
    requires r in [v] + GetChildren(data, v.id.value, false)
    ensures TopBelow(data, r, x) == v
  {
    assert ChainFrom(data, [v], x);
    if r != v {
      ChildrenUnder(data, v.id.value, false);
      var path :| ChainFrom(data, path, v.id.value) && path[|path| - 1] == r;
      ChainCons(data, v, path, x);
      ChainTop(data, [v] + path, x);
    } else {
      ChainTop(data, [v], x);
    }
  }

  lemma {:induction false} DescendTop(data: seq<Record>, x: int, ks: seq<Record>, b: Record)
    requires Acyclic(data) && UniqueIds(data)
    requires forall k :: k in ks ==> k in data && k.id.Some? && IsChildOf(k, x)
    requires b in Descend(data, ks)
    ensures exists m :: 0 <= m < |ks| && TopBelow(data, b, x) == ks[m]
    decreases |ks|
  {
    var block := [ks[0]] + GetChildren(data, ks[0].id.value, false);
    assert Descend(data, ks) == block + Descend(data, ks[1..]);
    if b in block {
      BlockTop(data, x, ks[0], b);
    } else {
      DescendTop(data, x, ks[1..], b);
      var m :| 0 <= m < |ks[1..]| && TopBelow(data, b, x) == ks[1..][m];
      assert ks[1..][m] == ks[m + 1];
    }
  }

  lemma {:induction false} DescendNoRepeats(data: seq<Record>, x: int, ks: seq<Record>)
    requires Acyclic(data) && UniqueIds(data)
    requires forall k :: k in ks ==> k in data && k.id.Some? && IsChildOf(k, x)
    requires NoRepeats(ks)
    ensures NoRepeats(Descend(data, ks))
    decreases Rank(data)(x), 0, |ks|
  {
    if ks != [] {
      var k := ks[0];
      ChildBelow(data, k, x);
      var sub := GetChildren(data, k.id.value, false);
      ChildrenOnce(data, k.id.value);
      ChildrenFromUnder(data, k.id.value, false, 0);
      NoRepeatsAppend([k], sub);
      var block := [k] + sub;
      var tail := ks[1..];
      assert NoRepeats(tail) by {
        forall i, j | 0 <= i < j < |tail| ensures tail[i] != tail[j] {
          assert tail[i] == ks[i + 1] && tail[j] == ks[j + 1];
        }
      }
      DescendNoRepeats(data, x, tail);
      var rest := Descend(data, tail);
      forall a | a in block ensures a !in rest {
        BlockTop(data, x, k, a);
        if a in rest {
          DescendTop(data, x, tail, a);
        }
      }
      NoRepeatsAppend(block, rest);
      assert Descend(data, ks) == block + rest;
    }
  }

  /** With unique identifiers getChildren lists every descendant exactly
      once: no record appears twice in its result.  (With a repeated
      identifier a subtree is listed once per record carrying it.) */
  lemma ChildrenOnce(data: seq<Record>, x: int)
    requires Acyclic(data) && UniqueIds(data)
    ensures NoRepeats(GetChildren(data, x, false))
    decreases Rank(data)(x), 1
  {
    ChildrenUnfold(data, x);
    GetChildIsScan(data, x);
    var ks := ScanChildren(data, x);
    assert NoRepeats(ks) by {
      forall i, j | 0 <= i < j < |ks| ensures ks[i] != ks[j] {
        assert ks[i] in ks && ks[j] in ks;
      }
    }
    DescendNoRepeats(data, x, ks);
  }

  // ---------------------------------------------------------------------
  // Self inclusion

  /** The records of `s` whose identifier is `x` (keep) or that do not have
      identifier `x` (not keep), in order. */
  function SelectId(s: seq<Record>, x: int, keep: bool): (res: seq<Record>)
    decreases |s|
  {
    if s == [] then []
    else (if HasId(s[0], x) == keep then [s[0]] else []) + SelectId(s[1..], x, keep)
  }

  lemma {:induction false} SelectIdAppend(a: seq<Record>, b: seq<Record>, x: int, keep: bool)
    ensures SelectId(a + b, x, keep) == SelectId(a, x, keep) + SelectId(b, x, keep)
    decreases |a|
  {
    if a == [] {
      assert a + b == b;
    } else {
      SelectIdAppend(a[1..], b, x, keep);
      assert (a + b)[1..] == a[1..] + b;
      var h := if HasId(a[0], x) == keep then [a[0]] else [];
      assert SelectId(a + b, x, keep) == h + SelectId(a[1..] + b, x, keep);
      assert SelectId(a, x, keep) == h + SelectId(a[1..], x, keep);
    }
  }

  lemma {:induction false} SelectIdNone(s: seq<Record>, x: int, keep: bool)
    requires forall k :: 0 <= k < |s| ==> !HasId(s[k], x)
    ensures SelectId(s, x, keep) == if keep then [] else s
    decreases |s|
  {
    if s != [] {
      SelectIdNone(s[1..], x, keep);
      assert s == [s[0]] + s[1..];
    }
  }

  lemma {:induction false} ChildrenFromSelf(data: seq<Record>, x: int, i: nat)
    requires Acyclic(data)
    requires i <= |data|
    ensures SelectId(ChildrenFrom(data, x, true, i), x, false) == ChildrenFrom(data, x, false, i)
    ensures SelectId(ChildrenFrom(data, x, true, i), x, true) == SelectId(data[i..], x, true)
    decreases |data| - i
  {
    if i < |data| {
      ChildrenFromSelf(data, x, i + 1);
      var v := data[i];
      var restT := ChildrenFrom(data, x, true, i + 1);
      var restF := ChildrenFrom(data, x, false, i + 1);
      assert data[i..] == [v] + data[i + 1..];
      SelectIdAppend([v], data[i + 1..], x, true);
      if v.id.None? {
        assert ChildrenFrom(data, x, true, i) == restT;
        assert ChildrenFrom(data, x, false, i) == restF;
      } else if IsChildOf(v, x) {
        ChildBelow(data, v, x);
        ChildrenFromUnder(data, v.id.value, false, 0);
        var here := [v] + ChildrenFrom(data, v.id.value, false, 0);
        forall k | 0 <= k < |here| ensures !HasId(here[k], x) {
          if k > 0 { assert here[k] in ChildrenFrom(data, v.id.value, false, 0); }
        }
        assert ChildrenFrom(data, x, true, i) == here + restT;
        assert ChildrenFrom(data, x, false, i) == here + restF;
        SelectIdAppend(here, restT, x, false);
        SelectIdAppend(here, restT, x, true);
        SelectIdNone(here, x, false);
        SelectIdNone(here, x, true);
      } else if IdsEqual(v.id.value, x) {
        assert ChildrenFrom(data, x, true, i) == [v] + restT;
        assert ChildrenFrom(data, x, false, i) == restF;
        SelectIdAppend([v], restT, x, false);
        SelectIdAppend([v], restT, x, true);
      } else {
        assert ChildrenFrom(data, x, true, i) == restT;
        assert ChildrenFrom(data, x, false, i) == restF;
      }
    }
  }

  /** `withSelf` only adds records: dropping the records with identifier
      `x` from the result gives the result without self, and those records
      are exactly the records of the set with identifier `x`, in scan order.
      (The source adds a self record only when it is not also a child of
      `x`; on acyclic data that is every self record.) */
  lemma WithSelfAddsSelf(data: seq<Record>, x: int)
    requires Acyclic(data)
    ensures SelectId(GetChildren(data, x, true), x, false) == GetChildren(data, x, false)
    ensures SelectId(GetChildren(data, x, true), x, true) == SelectId(data, x, true)
  {
    ChildrenFromSelf(data, x, 0);
    assert data[0..] == data;
  }

  /** The records of `s` the scan with `withSelf` stops at, in order: the
      children of `x` and the records of `x` itself. */
  function ScanFamily(s: seq<Record>, x: int): (res: seq<Record>)
    ensures forall r :: r in res ==> r in s && r.id.Some?
    decreases |s|
  {
    if s == [] then []
    else (if IsChildOf(s[0], x) || HasId(s[0], x) then [s[0]] else []) + ScanFamily(s[1..], x)
  }

  /** Reference expansion with self: each child of `x` is followed by its
      own descendants, and a record of `x` itself stands alone. */
  function DescendWithSelf(data: seq<Record>, x: int, ks: seq<Record>): seq<Record>
    requires Acyclic(data)
    requires forall k :: k in ks ==> k.id.Some?
    decreases |ks|
  {
    if ks == [] then []
    else
      (if IsChildOf(ks[0], x) then [ks[0]] + GetChildren(data, ks[0].id.value, false) else [ks[0]])
      + DescendWithSelf(data, x, ks[1..])
  }

  lemma {:induction false} ChildrenFromSelfUnfold(data: seq<Record>, x: int, i: nat)
    requires Acyclic(data)
    requires i <= |data|
    ensures ChildrenFrom(data, x, true, i) == DescendWithSelf(data, x, ScanFamily(data[i..], x))
    decreases |data| - i
  {
    if i < |data| {
      ChildrenFromSelfUnfold(data, x, i + 1);
      var v := data[i];
      var tail := ScanFamily(data[i + 1..], x);
      assert data[i..][0] == v && data[i..][1..] == data[i + 1..];
      var picked := IsChildOf(v, x) || HasId(v, x);
      assert ScanFamily(data[i..], x) == (if picked then [v] else []) + tail;
      if picked {
        var ks := [v] + tail;
        assert ks[0] == v && ks[1..] == tail;
        assert DescendWithSelf(data, x, ks)
            == (if IsChildOf(v, x) then [v] + GetChildren(data, v.id.value, false) else [v])
               + DescendWithSelf(data, x, tail);
      } else {
        assert ChildrenFrom(data, x, true, i) == ChildrenFrom(data, x, true, i + 1);
        assert ScanFamily(data[i..], x) == tail;
      }
    } else {
      assert data[i..] == [];
    }
  }

  /** With `withSelf` the scan keeps its order: walking the children of `x`
      and the records of `x` itself as they occur, a child contributes
      itself followed by its own descendants and a self record contributes
      itself, at its scan position. */
  lemma ChildrenWithSelfUnfold(data: seq<Record>, x: int)
    requires Acyclic(data)
    ensures GetChildren(data, x, true) == DescendWithSelf(data, x, ScanFamily(data, x))
  {
    ChildrenFromSelfUnfold(data, x, 0);
    assert data[0..] == data;
  }

  // ---------------------------------------------------------------------
  // Ancestors

  /** `r` is the first record carrying its identifier. */
  ghost predicate IsFirstRecord(data: seq<Record>, r: Record) {
    r.id.Some? && FirstWithId(data, r.id.value) < |data| && data[FirstWithId(data, r.id.value)] == r
  }

  /** The ancestors of `x`, root first, followed by the record of `x` itself
      when `withSelf` is set.  Each step up follows the parent of the first
      record with the current identifier; the walk stops at a parent of 0
      or at a parent no record carries, so only the first element may name
      the root 0 as its parent. */
  function GetParents(data: seq<Record>, x: int, withSelf: bool): (res: seq<Record>)
    requires Acyclic(data)
    ensures forall k :: 0 <= k < |res| ==> IsFirstRecord(data, res[k])
    ensures forall k :: 0 <= k < |res| - 1 ==> res[k].id == Some(ParentOf(res[k + 1]))
    ensures forall k :: 0 < k < |res| ==> ParentOf(res[k]) != 0
    ensures res != [] ==> ParentOf(res[0]) == 0 || FirstWithId(data, ParentOf(res[0])) == |data|
    ensures FirstWithId(data, x) == |data| ==> res == []
    ensures withSelf && FirstWithId(data, x) < |data| ==> res != [] && res[|res| - 1] == data[FirstWithId(data, x)]
    ensures !withSelf && res != [] ==>
              (FirstWithId(data, x) < |data| && ParentOf(data[FirstWithId(data, x)]) != 0 &&
               res[|res| - 1].id == Some(ParentOf(data[FirstWithId(data, x)])))
    ensures (FirstWithId(data, x) < |data| && ParentOf(data[FirstWithId(data, x)]) != 0 &&
             FirstWithId(data, ParentOf(data[FirstWithId(data, x)])) < |data|) ==> res != []
    decreases |data| - Rank(data)(x)
  {
    var i := FirstWithId(data, x);
    if i == |data| then []
    else
      var self := if withSelf then [data[i]] else [];
      var pid := ParentOf(data[i]);
      if pid == 0 then self
      else
        ChildBelow(data, data[i], pid);
        GetParents(data, pid, true) + self
  }

  /** getParents with self is getParents without self followed by the
      record of `x`. */
  lemma ParentsWithSelf(data: seq<Record>, x: int)
    requires Acyclic(data)
    requires FirstWithId(data, x) < |data|
    ensures GetParents(data, x, true) == GetParents(data, x, false) + [data[FirstWithId(data, x)]]
  {
  }

  /** The last ancestor is the parent: the chain without self is empty
      exactly when getParent is, and otherwise ends with getParent's
      record. */
  lemma ParentsEndWithParent(data: seq<Record>, x: int)
    requires Acyclic(data)
    ensures GetParents(data, x, false) == [] <==> GetParent(data, x) == []
    ensures GetParent(data, x) != [] ==>
              GetParents(data, x, false)[|GetParents(data, x, false)| - 1] == GetParent(data, x)[0]
  {
    var i := FirstWithId(data, x);
    if i < |data| && ParentOf(data[i]) != 0 {
      var pid := ParentOf(data[i]);
      var j := FirstWithId(data, pid);
      if j < |data| {
        assert GetParent(data, x) == [data[j]];
      }
    }
  }

  /** The identifiers of getParents, in the same order. */
  method GetParentsIds(data: seq<Record>, x: int, withSelf: bool) returns (ids: seq<int>)
    requires Acyclic(data)
    ensures |ids| == |GetParents(data, x, withSelf)|
    ensures forall k :: 0 <= k < |ids| ==> GetParents(data, x, withSelf)[k].id == Some(ids[k])
    ensures withSelf && FirstWithId(data, x) < |data| ==> ids != [] && ids[|ids| - 1] == x
    ensures forall k :: 0 <= k < |ids| - 1 ==> ParentOf(GetParents(data, x, withSelf)[k + 1]) == ids[k]
  {
    var parents := GetParents(data, x, withSelf);
    ids := [];
    var k := 0;
    while k < |parents|
      invariant 0 <= k <= |parents|
      invariant |ids| == k
      invariant forall m :: 0 <= m < k ==> parents[m].id == Some(ids[m])
    {
      assert IsFirstRecord(data, parents[k]);
      ids := ids + [parents[k].id.value];
      k := k + 1;
    }
  }
}

=== FILE: connectors.dfy ===
/** The connector bookkeeping shared by the option-list renderer, the
    dual-template renderer and the tree-array builder: which glyph a node
    gets and what prefix its own children inherit. */
module Connectors {
  import opened PhpValues
  import opened Records

  /** The node's connector glyph: the corner glyph for the last sibling, the branch glyph for
      every other one. */
  function Connector(icon: Icons, last: bool): string {
    if last then icon.corner else icon.branch
  }

  /** The node's spacer: the running prefix followed by the node's connector, or
      nothing at all when the prefix is PHP-false. */
  function Spacer(t: FastTree, prefix: string, last: bool): (s: string)
    ensures !Truthy(prefix) ==> s == ""
    ensures Truthy(prefix) && last ==> s == prefix + t.icon.corner
    ensures Truthy(prefix) && !last ==> s == prefix + t.icon.branch
  {
    if Truthy(prefix) then prefix + Connector(t.icon, last) else ""
  }

  /** The prefix handed to a node's children by getTree and getTreeArray:
      the running prefix, then (only when that prefix is PHP-true) the
      spacer token under a last sibling or the vertical glyph under any
      other, then the spacer token. */
  function ChildPrefix(t: FastTree, prefix: string, last: bool): (p: string)
    ensures !Truthy(prefix) ==> p == prefix + t.nbsp
    ensures Truthy(prefix) && last ==> p == prefix + t.nbsp + t.nbsp
    ensures Truthy(prefix) && !last ==> p == prefix + t.icon.vertical + t.nbsp
  {
    var k := if Truthy(prefix) then (if last then t.nbsp else t.icon.vertical) else "";
    prefix + k + t.nbsp
  }

  /** The prefix getTreeSpecial hands down: it never adds the spacer token
      for a last sibling, so its last-sibling prefix is one token shorter. */
  function SpecialChildPrefix(t: FastTree, prefix: string, last: bool): (p: string)
    ensures last || !Truthy(prefix) ==> p == prefix + t.nbsp
    ensures Truthy(prefix) && !last ==> p == prefix + t.icon.vertical + t.nbsp
  {
    var k := if !last && Truthy(prefix) then t.icon.vertical else "";
    prefix + k + t.nbsp
  }

  /** Both child prefixes extend the running prefix, and a PHP-true prefix
      stays PHP-true as it grows. */
  lemma ChildPrefixGrows(t: FastTree, prefix: string, last: bool)
    ensures prefix <= ChildPrefix(t, prefix, last) && prefix <= SpecialChildPrefix(t, prefix, last)
    ensures Truthy(prefix) ==> Truthy(ChildPrefix(t, prefix, last)) && Truthy(SpecialChildPrefix(t, prefix, last))
  {
    var p := ChildPrefix(t, prefix, last);
    var q := SpecialChildPrefix(t, prefix, last);
    assert p[..|prefix|] == prefix && q[..|prefix|] == prefix;
    if Truthy(prefix) {
      assert |p| >= |prefix| && |q| >= |prefix|;
      if |p| == |prefix| { assert p == prefix; }
      if |q| == |prefix| { assert q == prefix; }
    }
  }

  /** The two renderers disagree exactly under a last sibling with a
      PHP-true prefix (given a non-empty spacer token). */
  lemma SpecialPrefixDiffers(t: FastTree, prefix: string, last: bool)
    requires t.nbsp != ""
    ensures ChildPrefix(t, prefix, last) != SpecialChildPrefix(t, prefix, last) <==> last && Truthy(prefix)
  {
    if last && Truthy(prefix) {
      assert |ChildPrefix(t, prefix, last)| > |SpecialChildPrefix(t, prefix, last)|;
    }
  }
}

=== FILE: examples.dfy ===
/** Worked scenarios on small record sets: the behaviour the class's
    documentation describes, checked on concrete data. */
module Examples {
  import opened PhpValues
  import opened Records
  import opened Substitution
  import opened Lookup
  import opened Closure
  import opened Templates

  const R1: Record := Record(Some(1), Some(0), map[])
  const R2: Record := Record(Some(2), Some(1), map[])
  const R3: Record := Record(Some(3), Some(1), map[])

  /** A root with two children. */
  const Small: seq<Record> := [R1, R2, R3]

  function SmallRank(x: int): nat {
    if x == 0 then 2 else if x == 1 then 1 else 0
  }

  lemma SmallIsAcyclic()
    ensures Acyclic(Small)
  {
    assert RankedBy(Small, SmallRank);
  }

  /** The children of the root's record, in input order. */
  lemma SmallChild()
    ensures GetChild(Small, 1) == [R2, R3]
  {
    GetChildIsChildScan(Small, 1);
    assert ChildScan(Small, 1, 1) == [] by { ChildScanStep(Small, 1, 1); }
    assert ChildScan(Small, 1, 2) == [R2] by { ChildScanStep(Small, 1, 2); }
    assert ChildScan(Small, 1, 3) == [R2, R3] by {
      ChildScanStep(Small, 1, 3);
      assert IndexOfId([R2], 3) == 1;
    }
  }

  /** The root record is the only child of the sentinel 0. */
  lemma SmallRoot()
    ensures GetChild(Small, 0) == [R1]
  {
    GetChildIsChildScan(Small, 0);
    assert ChildScan(Small, 0, 1) == [R1] by { ChildScanStep(Small, 0, 1); }
    assert ChildScan(Small, 0, 2) == [R1] by { ChildScanStep(Small, 0, 2); }
    assert ChildScan(Small, 0, 3) == [R1] by { ChildScanStep(Small, 0, 3); }
  }

  /** The ancestors of the last record, root first. */
  lemma SmallParents()
    ensures Acyclic(Small) && GetParents(Small, 3, true) == [R1, R3]
    ensures GetParent(Small, 3) == [R1]
  {
    SmallIsAcyclic();
    assert FirstWithId(Small, 3) == 2;
    assert FirstWithId(Small, 1) == 0;
  }

  const A: Record := Record(Some(2), Some(1), map["name" := "first"])
  const B: Record := Record(Some(2), Some(1), map["name" := "second"])

  /** Two children sharing an identifier collapse into one entry, and the
      later record wins. */
  lemma DuplicateIdsCollapse()
    ensures GetChild([A, B], 1) == [B]
  {
    var data := [A, B];
    GetChildIsChildScan(data, 1);
    assert ChildScan(data, 1, 1) == [A] by { ChildScanStep(data, 1, 1); }
    assert ChildScan(data, 1, 2) == [B] by {
      ChildScanStep(data, 1, 2);
      assert IndexOfId([A], 2) == 0;
    }
  }

  const Kid: Record := Record(Some(2), Some(1), map[])
  const Self: Record := Record(Some(1), Some(0), map[])

  /** `withSelf` puts the node's own record where the scan meets it: here
      after its child, which comes first in the input. */
  lemma SelfAtScanPosition()
    ensures Acyclic([Kid, Self]) && GetChildren([Kid, Self], 1, true) == [Kid, Self]
  {
    var data := [Kid, Self];
    assert RankedBy(data, SmallRank);
    assert ChildrenFrom(data, 2, false, 0) == [] by {
      assert ChildrenFrom(data, 2, false, 1) == [];
    }
    assert ChildrenFrom(data, 1, true, 1) == [Self];
  }

  /** strtr takes the longest key at each position: `@idx` wins over `@id`. */
  lemma LongestKeyWins()
    ensures Strtr("@idx", map["@id" := "1", "@idx" := "X"]) == "X"
  {
    StrtrWholeKey("@idx", map["@id" := "1", "@idx" := "X"]);
  }

  /** The menu marks a record whose identifier is 0 as selected when the
      selected argument is the scalar 0; the other renderers do not. */
  lemma MenuMarksZero()
    ensures Marks(IdScalar(0), IdList([]), 0, false)["selected"] == "selected"
    ensures Marks(IdScalar(0), IdList([]), 0, true)["selected"] == ""
  {
  }
}

=== FILE: lookup.dfy ===
/** Lookup layer: the direct children of a node and the single parent of a
    node (src/FastTree.php, getChild and getParent). */
module Lookup {
  import opened Records

  /** Position of the first element of `res` carrying identifier `id`, or
      |res| when there is none. */
  function IndexOfId(res: seq<Record>, id: int): (j: nat)
    ensures j <= |res|
    ensures j < |res| ==> res[j].id == Some(id)
    ensures forall k :: 0 <= k < j ==> res[k].id != Some(id)
    decreases |res|
  {
    if res == [] then 0
    else if res[0].id == Some(id) then 0
    else 1 + IndexOfId(res[1..], id)
  }

  /** Storing a record under its identifier in an id-keyed PHP array: a key
      already present keeps its position and takes the new value; a new key
      is appended. */
  function Assign(res: seq<Record>, v: Record): seq<Record>
    requires v.id.Some?
  {
    var j := IndexOfId(res, v.id.value);
    if j < |res| then res[j := v] else res + [v]
  }

  /** The identifiers carried by a list of records. */
  ghost function IdsOf(res: seq<Record>): set<int> {
    set r | r in res && r.id.Some? :: r.id.value
  }

  /** The identifiers of the children of `x` among the first `n` records. */
  ghost function ChildIds(data: seq<Record>, x: int, n: nat): set<int>
    requires n <= |data|
  {
    set i | 0 <= i < n && IsChildOf(data[i], x) :: data[i].id.value
  }

  /** The id-keyed array `getChild` has built after scanning `n` records. */
  function ChildScan(data: seq<Record>, x: int, n: nat): (res: seq<Record>)
    requires n <= |data|
    ensures forall r :: r in res ==> r in data[..n] && IsChildOf(r, x)
    ensures UniqueIds(res)
    ensures IdsOf(res) == ChildIds(data, x, n)
    decreases n
  {
    if n == 0 then []
    else
      var res := ChildScan(data, x, n - 1);
      var v := data[n - 1];
      assert ChildIds(data, x, n) == ChildIds(data, x, n - 1) + (if IsChildOf(v, x) then {v.id.value} else {});
      assert forall r :: r in data[..n - 1] ==> r in data[..n];
      if IsChildOf(v, x) then
        AssignKeeps(res, v);
        Assign(res, v)
      else res
  }

  /** Assigning under a key keeps identifiers distinct and adds exactly the
      new record's identifier. */
  lemma AssignKeeps(res: seq<Record>, v: Record)
    requires v.id.Some? && UniqueIds(res)
    requires forall r :: r in res ==> r.id.Some?
    ensures var a := Assign(res, v);
      && UniqueIds(a)
      && IdsOf(a) == IdsOf(res) + {v.id.value}
      && (forall r :: r in a ==> r == v || r in res)
      && v in a
  {
    var j := IndexOfId(res, v.id.value);
    var a := Assign(res, v);
    if j < |res| {
      assert a == res[j := v];
      forall r | r in a ensures r == v || r in res {
        var k :| 0 <= k < |a| && a[k] == r;
        if k != j { assert a[k] == res[k]; }
      }
      forall i | i in IdsOf(res) ensures i in IdsOf(a) {
        var r :| r in res && r.id.Some? && r.id.value == i;
        var k :| 0 <= k < |res| && res[k] == r;
        if k == j { assert a[j] == v; } else { assert a[k] == r; }
      }
      assert a[j] == v;
    } else {
      assert a == res + [v];
      assert a[|res|] == v;
      forall i | i in IdsOf(res) ensures i in IdsOf(a) {
        var r :| r in res && r.id.Some? && r.id.value == i;
        assert r in a;
      }
    }
  }

  /** The direct children of `x`: every record that has an identifier and
      names `x` as its parent, keyed by identifier, so that records sharing
      an identifier collapse into one entry. */
  function GetChild(data: seq<Record>, x: int): (res: seq<Record>)
    ensures forall r :: r in res ==> r in data && IsChildOf(r, x)
    ensures UniqueIds(res)
    ensures forall r :: r in data && IsChildOf(r, x) ==> exists c :: c in res && c.id == r.id
    ensures res == [] <==> forall r :: r in data ==> !IsChildOf(r, x)
  {
    var res := ChildScan(data, x, |data|);
    assert data[..|data|] == data;
    forall r | r in data && IsChildOf(r, x)
      ensures exists c :: c in res && c.id == r.id
    {
      var i :| 0 <= i < |data| && data[i] == r;
      assert r.id.value in ChildIds(data, x, |data|);
      assert r.id.value in IdsOf(res);
    }
    assert res != [] ==> res[0] in res;
    res
  }

  /** One step of the scan: a child is assigned under its key, any other
      record leaves the array as it is. */
  lemma ChildScanStep(data: seq<Record>, x: int, n: nat)
    requires 0 < n <= |data|
    ensures ChildScan(data, x, n)
         == if IsChildOf(data[n - 1], x) then Assign(ChildScan(data, x, n - 1), data[n - 1]) else ChildScan(data, x, n - 1)
  {
  }

  /** getChild is the scan over the whole record set. */
  lemma GetChildIsChildScan(data: seq<Record>, x: int)
    ensures GetChild(data, x) == ChildScan(data, x, |data|)
  {
  }

  // ---------------------------------------------------------------------
  // Scan order

  /** Reference definition: the children of `x` in `s`, in scan order,
      without any collapsing. */
  function ScanChildren(s: seq<Record>, x: int): (res: seq<Record>)
    ensures forall r :: r in res ==> r in s && IsChildOf(r, x)
    ensures |res| <= |s|
    decreases |s|
  {
    if s == [] then []
    else (if IsChildOf(s[0], x) then [s[0]] else []) + ScanChildren(s[1..], x)
  }

  lemma {:induction false} ScanChildrenAppend(a: seq<Record>, b: seq<Record>, x: int)
    ensures ScanChildren(a + b, x) == ScanChildren(a, x) + ScanChildren(b, x)
    decreases |a|
  {
    if a != [] {
      ScanChildrenAppend(a[1..], b, x);
      assert (a + b)[1..] == a[1..] + b;
    } else {
      assert a + b == b;
    }
  }

  lemma {:induction false} ChildScanIsScan(data: seq<Record>, x: int, n: nat)
    requires n <= |data|
    requires UniqueIds(data)
    ensures ChildScan(data, x, n) == ScanChildren(data[..n], x)
    decreases n
  {
    if n > 0 {
      ChildScanIsScan(data, x, n - 1);
      var res := ChildScan(data, x, n - 1);
      var v := data[n - 1];
      assert data[..n] == data[..n - 1] + [v];
      ScanChildrenAppend(data[..n - 1], [v], x);
      assert ScanChildren([v], x) == if IsChildOf(v, x) then [v] else [];
      if IsChildOf(v, x) {
        forall k | 0 <= k < |res| ensures res[k].id != v.id {
          assert res[k] in data[..n - 1];
          var i :| 0 <= i < n - 1 && data[..n - 1][i] == res[k];
          assert data[i] == res[k];
        }
        assert IndexOfId(res, v.id.value) == |res|;
      }
    }
  }

  /** With unique identifiers nothing collapses: the children are exactly
      the matching records, in scan order. */
  lemma GetChildIsScan(data: seq<Record>, x: int)
    requires UniqueIds(data)
    ensures GetChild(data, x) == ScanChildren(data, x)
  {
    ChildScanIsScan(data, x, |data|);
    assert data[..|data|] == data;
  }

  /** Position of the first child of `x` with identifier `id` at or after
      position `k`, or |data| when there is none. */
  function FirstChildFrom(data: seq<Record>, x: int, id: int, k: nat): (i: nat)
    requires k <= |data|
    ensures k <= i <= |data|
    ensures i < |data| ==> IsChildOf(data[i], x) && data[i].id == Some(id)
    ensures forall j :: k <= j < i ==> !IsChildOf(data[j], x) || data[j].id != Some(id)
    decreases |data| - k
  {
    if k == |data| then k
    else if IsChildOf(data[k], x) && data[k].id == Some(id) then k
    else FirstChildFrom(data, x, id, k + 1)
  }

  /** Position of the first child of `x` with identifier `id`, or |data|. */
  function FirstChild(data: seq<Record>, x: int, id: int): (i: nat)
    ensures i <= |data|
    ensures i < |data| ==> IsChildOf(data[i], x) && data[i].id == Some(id)
    ensures forall j :: 0 <= j < i ==> !IsChildOf(data[j], x) || data[j].id != Some(id)
  {
    FirstChildFrom(data, x, id, 0)
  }

  /** The first child with identifier `id` lies among the first `n` records
      exactly when some child among them has that identifier. */
  lemma FirstChildBefore(data: seq<Record>, x: int, id: int, n: nat)
    requires n <= |data|
    ensures FirstChild(data, x, id) < n <==> id in ChildIds(data, x, n)
  {
    var i := FirstChild(data, x, id);
    if i < n {
      assert IsChildOf(data[i], x) && data[i].id.value == id;
    }
    if id in ChildIds(data, x, n) {
      var j :| 0 <= j < n && IsChildOf(data[j], x) && data[j].id.value == id;
      assert data[j].id == Some(id);
    }
  }

  /** Where the identifier of `r` was first seen among the children of `x`. */
  function SeenAt(data: seq<Record>, x: int, r: Record): nat {
    if r.id.Some? then FirstChild(data, x, r.id.value) else |data|
  }

  /** Every entry's identifier was first seen before position `n`, and the
      entries are ordered by where their identifiers were first seen. */
  ghost predicate SeenInOrder(data: seq<Record>, x: int, res: seq<Record>, n: nat) {
    && (forall k :: 0 <= k < |res| ==> SeenAt(data, x, res[k]) < n)
    && (forall k, l :: 0 <= k < l < |res| ==> SeenAt(data, x, res[k]) < SeenAt(data, x, res[l]))
  }

  lemma SeenReplace(data: seq<Record>, x: int, before: seq<Record>, j: nat, v: Record, n: nat)
    requires SeenInOrder(data, x, before, n)
    requires j < |before| && before[j].id == v.id
    ensures SeenInOrder(data, x, before[j := v], n)
  {
    var res := before[j := v];
    assert forall k :: 0 <= k < |res| ==> SeenAt(data, x, res[k]) == SeenAt(data, x, before[k]);
  }

  lemma SeenAppend(data: seq<Record>, x: int, before: seq<Record>, v: Record, n: nat)
    requires n > 0 && SeenInOrder(data, x, before, n - 1)
    requires SeenAt(data, x, v) == n - 1
    ensures SeenInOrder(data, x, before + [v], n)
  {
    var res := before + [v];
    assert forall k :: 0 <= k < |before| ==> res[k] == before[k];
    assert res[|before|] == v;
  }

  /** A child whose identifier no earlier child carries is first seen at
      its own position. */
  lemma SeenFresh(data: seq<Record>, x: int, n: nat)
    requires 0 < n <= |data| && IsChildOf(data[n - 1], x)
    requires data[n - 1].id.value !in ChildIds(data, x, n - 1)
    ensures SeenAt(data, x, data[n - 1]) == n - 1
  {
    var v := data[n - 1];
    FirstChildBefore(data, x, v.id.value, n - 1);
    FirstChildBefore(data, x, v.id.value, n);
    assert v.id.value in ChildIds(data, x, n);
  }

  lemma {:induction false} ChildScanFirstSeen(data: seq<Record>, x: int, n: nat)
    requires n <= |data|
    ensures SeenInOrder(data, x, ChildScan(data, x, n), n)
    decreases n
  {
    if n > 0 {
      ChildScanFirstSeen(data, x, n - 1);
      ChildScanStep(data, x, n);
      var before := ChildScan(data, x, n - 1);
      var v := data[n - 1];
      if IsChildOf(v, x) {
        var j := IndexOfId(before, v.id.value);
        if j < |before| {
          SeenReplace(data, x, before, j, v, n - 1);
          SeenWeaken(data, x, before[j := v], n - 1, n);
        } else {
          SeenFresh(data, x, n);
          SeenAppend(data, x, before, v, n);
        }
      } else {
        SeenWeaken(data, x, before, n - 1, n);
      }
    }
  }

  lemma SeenWeaken(data: seq<Record>, x: int, res: seq<Record>, m: nat, n: nat)
    requires SeenInOrder(data, x, res, m) && m <= n
    ensures SeenInOrder(data, x, res, n)
  {
  }

  /** With repeated identifiers, entry k of getChild's result sits where
      the first child carrying its identifier was seen: the entries follow
      those first positions, strictly increasing (a later assignment to a
      known key keeps the key's place). */
  lemma GetChildFirstSeen(data: seq<Record>, x: int)
    ensures var res := GetChild(data, x);
      forall k :: 0 <= k < |res| ==> res[k].id.Some? && FirstChild(data, x, res[k].id.value) < |data|
    ensures var res := GetChild(data, x);
      forall k, l :: 0 <= k < l < |res| ==> SeenAt(data, x, res[k]) < SeenAt(data, x, res[l])
  {
    GetChildIsChildScan(data, x);
    var res := GetChild(data, x);
    ChildScanFirstSeen(data, x, |data|);
    forall k | 0 <= k < |res| ensures res[k].id.Some? && FirstChild(data, x, res[k].id.value) < |data| {
      assert res[k] in res;
      assert SeenAt(data, x, res[k]) < |data|;
    }
  }

  /** `r` is a child of `x` at position i < n, and no later child of `x`
      among the first n records has the same identifier. */
  ghost predicate LastOfItsId(data: seq<Record>, x: int, n: nat, r: Record)
    requires n <= |data|
  {
    exists i :: 0 <= i < n && data[i] == r &&
      forall j :: i < j < n && IsChildOf(data[j], x) ==> data[j].id != r.id
  }

  lemma {:induction false} ChildScanLastWins(data: seq<Record>, x: int, n: nat)
    requires n <= |data|
    ensures forall k :: 0 <= k < |ChildScan(data, x, n)| ==> LastOfItsId(data, x, n, ChildScan(data, x, n)[k])
    decreases n
  {
    if n > 0 {
      ChildScanLastWins(data, x, n - 1);
      var before := ChildScan(data, x, n - 1);
      var res := ChildScan(data, x, n);
      var v := data[n - 1];
      forall k | 0 <= k < |res|
        ensures LastOfItsId(data, x, n, res[k])
      {
        if res[k] == v && IsChildOf(v, x) {
          assert data[n - 1] == res[k];
        } else {
          assert k < |before| && res[k] == before[k];
          assert LastOfItsId(data, x, n - 1, before[k]);
          var i :| 0 <= i < n - 1 && data[i] == before[k] &&
            forall j :: i < j < n - 1 && IsChildOf(data[j], x) ==> data[j].id != before[k].id;
          if IsChildOf(v, x) {
            var jj := IndexOfId(before, v.id.value);
            assert jj < |before| ==> jj != k;
            assert v.id != before[k].id;
          }
        }
      }
    }
  }

  /** When several children share an identifier, the entry for it is the
      last of them in scan order (a later assignment to the same key
      overwrites the value). */
  lemma GetChildLastWins(data: seq<Record>, x: int, k: nat)
    requires k < |GetChild(data, x)|
    ensures exists i :: 0 <= i < |data| && data[i] == GetChild(data, x)[k] &&
              (forall j :: i < j < |data| && IsChildOf(data[j], x) ==> data[j].id != data[i].id)
  {
    ChildScanLastWins(data, x, |data|);
    assert LastOfItsId(data, x, |data|, GetChild(data, x)[k]);
  }

  // ---------------------------------------------------------------------
  // Parent

  /** `data[i]` is the first record that has identifier `x`. */
  ghost predicate IsFirstWithId(data: seq<Record>, i: int, x: int) {
    0 <= i < |data| && HasId(data[i], x) && forall j :: 0 <= j < i ==> !HasId(data[j], x)
  }

  function FindIdFrom(data: seq<Record>, x: int, k: nat): (i: nat)
    requires k <= |data|
    ensures k <= i <= |data|
    ensures i < |data| ==> HasId(data[i], x)
    ensures forall j :: k <= j < i ==> !HasId(data[j], x)
    decreases |data| - k
  {
    if k == |data| then k
    else if HasId(data[k], x) then k
    else FindIdFrom(data, x, k + 1)
  }

  /** The scan both getParent and getParents start with: the position of the
      first record with identifier `x`, or |data| when there is none. */
  function FirstWithId(data: seq<Record>, x: int): (i: nat)
    ensures i <= |data|
    ensures i < |data| ==> IsFirstWithId(data, i, x)
    ensures i == |data| ==> forall r :: r in data ==> !HasId(r, x)
  {
    FindIdFrom(data, x, 0)
  }

  /** The parent record of `x`, as a list of at most one record.  It is
      empty when no record has identifier `x`, when that record's parent is
      0 (or missing), or when no record has the parent's identifier;
      otherwise it is the first record with the parent's identifier.  (The
      second scan of the source skips no record without an identifier, but
      such a record never equals a non-zero parent.) */
  function GetParent(data: seq<Record>, x: int): (r: seq<Record>)
    ensures |r| <= 1
    ensures forall i, j ::
              (IsFirstWithId(data, i, x) && ParentOf(data[i]) != 0 && IsFirstWithId(data, j, ParentOf(data[i])))
              ==> r == [data[j]]
    ensures r != [] ==> exists i, j :: IsFirstWithId(data, i, x) && ParentOf(data[i]) != 0
                                       && IsFirstWithId(data, j, ParentOf(data[i])) && r == [data[j]]
  {
    var i := FirstWithId(data, x);
    if i == |data| then []
    else
      var pid := ParentOf(data[i]);
      if pid == 0 then []
      else
        var j := FirstWithId(data, pid);
        if j == |data| then [] else [data[j]]
  }
}

=== FILE: php_values.dfy ===
/** PHP value conventions the tree engine leans on: which strings count as
    false in a condition, and how an integer becomes text when it is put
    into a substitution map or concatenated into a string. */
module PhpValues {

  /** PHP reads a string as false exactly when it is "" or "0". */
  predicate Truthy(s: string) {
    s != "" && s != "0"
  }

  predicate IsDigit(c: char) {
    '0' <= c <= '9'
  }

  predicate AllDigits(s: string) {
    forall i :: 0 <= i < |s| ==> IsDigit(s[i])
  }

  function Digit(d: nat): (c: char)
    requires d < 10
    ensures IsDigit(c) && c as int - '0' as int == d
  {
    (d + '0' as int) as char
  }

  /** Decimal notation of a natural number, most significant digit first. */
  function NatToString(n: nat): (s: string)
    ensures |s| >= 1 && AllDigits(s)
    ensures s[0] == '0' ==> n == 0
    ensures n >= 10 ==> |s| >= 2
    decreases n
  {
    if n < 10 then [Digit(n)] else NatToString(n / 10) + [Digit(n % 10)]
  }

  /** The number a string of decimal digits denotes. */
  function DigitsValue(s: string): nat
    requires AllDigits(s)
    decreases |s|
  {
    if s == [] then 0
    else
      assert IsDigit(s[|s| - 1]);
      DigitsValue(s[..|s| - 1]) * 10 + (s[|s| - 1] as int - '0' as int)
  }

  /** PHP's conversion of an integer to a string: an optional minus sign
      followed by the decimal digits, with no leading zeros. */
  function IntToString(n: int): (s: string)
    ensures s != ""
    ensures s == "0" <==> n == 0
  {
    if n < 0 then "-" + NatToString(-n) else NatToString(n)
  }

  /** Reads back a string of the shape IntToString produces. */
  function ParseInt(s: string): int
    requires s != [] && (if s[0] == '-' then AllDigits(s[1..]) else AllDigits(s))
  {
    if s[0] == '-' then -(DigitsValue(s[1..]) as int) else DigitsValue(s)
  }

  lemma {:induction false} NatRoundTrip(n: nat)
    ensures DigitsValue(NatToString(n)) == n
    decreases n
  {
    if n >= 10 {
      var s := NatToString(n);
      assert s[..|s| - 1] == NatToString(n / 10);
      NatRoundTrip(n / 10);
    }
  }

  /** Integer-to-text conversion loses nothing: the text reads back as the
      same integer. */
  lemma IntRoundTrip(n: int)
    ensures ParseInt(IntToString(n)) == n
  {
    if n < 0 {
      assert IntToString(n)[1..] == NatToString(-n);
      NatRoundTrip(-n);
    } else {
      NatRoundTrip(n);
    }
  }

  /** An integer printed as text is true in a PHP condition exactly when
      the integer itself is non-zero. */
  lemma TruthyIntToString(n: int)
    ensures Truthy(IntToString(n)) <==> n != 0
  {
  }
}

=== FILE: records.dfy ===
/** The record set, the engine's configuration and the conventions shared by
    every traversal: how an identifier is compared, how a record reads its
    parent, how a record becomes a `@field` substitution map, and what makes
    the recursion terminate. */
module Records {
  import opened PhpValues

  datatype Option<T> = None | Some(value: T)

  /** One element of the flat record set.  `id` is the identifier and `pid`
      the value held under the configured parent field; either is None when
      the PHP array has no such key.  Every other field is kept, as text, in
      `fields`. */
  datatype Record = Record(id: Option<int>, pid: Option<int>, fields: map<string, string>)

  /** The three connector glyphs: icon[0], icon[1] and icon[2] of the source. */
  datatype Icons = Icons(vertical: string, branch: string, corner: string)

  /** The engine's state: the record set and its configuration. */
  datatype FastTree = FastTree(data: seq<Record>, icon: Icons, nbsp: string, pidName: string)

  /** A freshly constructed engine. */
  const Defaults: FastTree := FastTree([], Icons("│", "├", "└"), "&nbsp;", "pid")

  /** Installs a record set; the parent-field name and the spacer token are
      replaced only when given. */
  function Init(t: FastTree, data: seq<Record>, pidName: Option<string>, nbsp: Option<string>): (r: FastTree)
    ensures r.data == data && r.icon == t.icon
    ensures pidName.Some? ==> r.pidName == pidName.value
    ensures pidName.None? ==> r.pidName == t.pidName
    ensures nbsp.Some? ==> r.nbsp == nbsp.value
    ensures nbsp.None? ==> r.nbsp == t.nbsp
  {
    FastTree(data, t.icon,
             if nbsp.Some? then nbsp.value else t.nbsp,
             if pidName.Some? then pidName.value else t.pidName)
  }

  /** A later `init` replaces the record set and every option it gives;
      an option it leaves null keeps the value the earlier call set, and
      the connector glyphs survive both. */
  lemma InitCompose(t: FastTree, d1: seq<Record>, p1: Option<string>, n1: Option<string>,
                    d2: seq<Record>, p2: Option<string>, n2: Option<string>)
    ensures Init(Init(t, d1, p1, n1), d2, p2, n2)
         == Init(t, d2, if p2.Some? then p2 else p1, if n2.Some? then n2 else n1)
    ensures Init(Init(t, d1, p1, n1), d2, p2, n2).icon == t.icon
  {
  }

  // ---------------------------------------------------------------------
  // Identifiers

  /** The one place identifiers are compared (PHP's loose `==`, which on
      integers is plain equality). */
  predicate IdsEqual(a: int, b: int) {
    a == b
  }

  /** The parent a record names.  A missing parent field reads as PHP's
      null, which compares equal to 0 and to nothing else among integers,
      so it behaves exactly like the root sentinel 0. */
  function ParentOf(r: Record): int {
    if r.pid.Some? then r.pid.value else 0
  }

  /** The record has an identifier and its parent field equals `x`. */
  predicate IsChildOf(r: Record, x: int) {
    r.id.Some? && IdsEqual(ParentOf(r), x)
  }

  /** The record has an identifier and it equals `x`. */
  predicate HasId(r: Record, x: int) {
    r.id.Some? && IdsEqual(r.id.value, x)
  }

  /** No two records that carry an identifier share it. */
  ghost predicate UniqueIds(data: seq<Record>) {
    forall i, j :: 0 <= i < j < |data| && data[i].id.Some? && data[j].id.Some? ==> data[i].id != data[j].id
  }

  /** Every identifier present is non-zero (PHP-true). */
  ghost predicate NonZeroIds(data: seq<Record>) {
    forall r :: r in data && r.id.Some? ==> r.id.value != 0
  }

  // ---------------------------------------------------------------------
  // Records as PHP arrays

  /** The record as the PHP array it stands for, with every value as text;
      the identifier and the parent field take precedence over a text field
      of the same name. */
  function Row(r: Record, pidName: string): (row: map<string, string>)
    ensures r.id.Some? ==> "id" in row && row["id"] == IntToString(r.id.value)
    ensures r.id.None? && pidName != "id" ==> "id" !in row
    ensures pidName != "id" && r.pid.Some? ==> pidName in row && row[pidName] == IntToString(r.pid.value)
    ensures pidName != "id" && r.pid.None? ==> pidName !in row
    ensures forall k :: k in r.fields && k != "id" && k != pidName ==> k in row && row[k] == r.fields[k]
    ensures forall k :: k in row ==> k in r.fields || k == "id" || k == pidName
  {
    var base := r.fields - {"id", pidName};
    var withPid := if r.pid.Some? then base[pidName := IntToString(r.pid.value)] else base;
    if r.id.Some? then withPid["id" := IntToString(r.id.value)] else withPid
  }

  /** The value of a field as PHP reads it into a string: absent is "". */
  function Get(row: map<string, string>, key: string): string {
    if key in row then row[key] else ""
  }

  /** The row with every key renamed by prefixing '@': every field `k`
      becomes the placeholder `@k` with the same value. */
  function Placeholders(row: map<string, string>): (p: map<string, string>)
    ensures forall k :: k in row <==> "@" + k in p
    ensures forall k :: k in row ==> p["@" + k] == row[k]
    ensures forall key :: key in p ==> key != [] && key[0] == '@' && key[1..] in row
  {
    AtPrefixInjective();
    map k | k in row :: "@" + k := row[k]
  }

  lemma AtPrefixInjective()
    ensures forall k: string :: ("@" + k)[1..] == k
  {
    forall k: string ensures ("@" + k)[1..] == k {
      assert ("@" + k)[1..] == k;
    }
  }

  // ---------------------------------------------------------------------
  // Selected and disabled identifiers

  /** A caller-supplied identifier list: a PHP array of identifiers, or a
      single integer (which the source turns into a one-element list). */
  datatype IdArg = IdList(ids: seq<int>) | IdScalar(n: int)

  /** The PHP truth of the argument itself, which the guarded renderers
      test before looking the identifier up. */
  predicate ArgTruthy(a: IdArg) {
    match a
    case IdList(ids) => ids != []
    case IdScalar(n) => n != 0
  }

  /** The identifier occurs in the argument: in the array itself, or in the
      one-element list a scalar splits into. */
  predicate InArray(id: int, a: IdArg) {
    match a
    case IdList(ids) => exists i :: 0 <= i < |ids| && IdsEqual(ids[i], id)
    case IdScalar(n) => IdsEqual(n, id)
  }

  /** Whether a record is marked.  The option-list, nested-list and
      dual-template renderers first test the argument's own truth
      (`guarded`); the menu renderer does not. */
  predicate Flag(a: IdArg, id: int, guarded: bool) {
    (!guarded || ArgTruthy(a)) && InArray(id, a)
  }

  /** The marker string a flag turns into: the word, or "". */
  function Marker(a: IdArg, id: int, guarded: bool, word: string): (s: string)
    requires word != ""
    ensures s != "" <==> Flag(a, id, guarded)
  {
    if Flag(a, id, guarded) then word else ""
  }

  /** What a marker means without the flag: for an array, the identifier
      occurs in it (the guard never matters); for a scalar, the scalar is
      the identifier and, when guarded, is not 0. */
  lemma MarkerMeaning(a: IdArg, id: int, guarded: bool, word: string)
    requires word != ""
    ensures a.IdList? ==> Marker(a, id, guarded, word) == (if id in a.ids then word else "")
    ensures a.IdScalar? ==> Marker(a, id, guarded, word) == (if a.n == id && (a.n != 0 || !guarded) then word else "")
  {
    if a.IdList? && id in a.ids {
      var i :| 0 <= i < |a.ids| && a.ids[i] == id;
      assert InArray(id, a);
    }
  }

  /** Dropping the guard matters only for a scalar 0: an empty list marks
      nothing either way, and a non-zero scalar or a non-empty list is
      itself true. */
  lemma GuardMattersOnlyForZero(a: IdArg, id: int)
    ensures Flag(a, id, true) != Flag(a, id, false) <==> a == IdScalar(0) && id == 0
  {
  }

  // ---------------------------------------------------------------------
  // Termination

  /** `rank` strictly decreases from every parent to each record naming it,
      and is bounded by the size of the record set. */
  ghost predicate RankedBy(data: seq<Record>, rank: int -> nat) {
    && (forall x :: rank(x) <= |data|)
    && (forall r :: r in data && r.id.Some? ==> rank(r.id.value) < rank(ParentOf(r)))
  }

  /** The parent references form a forest: no record is, through its
      parents, its own ancestor.  The source recurses without bound
      otherwise, so every recursive operation requires this. */
  ghost predicate Acyclic(data: seq<Record>) {
    exists rank: int -> nat :: RankedBy(data, rank)
  }

  ghost function Rank(data: seq<Record>): (rank: int -> nat)
    requires Acyclic(data)
    ensures RankedBy(data, rank)
  {
    var rank :| RankedBy(data, rank);
    rank
  }

  /** A child sits strictly below its parent. */
  lemma ChildBelow(data: seq<Record>, r: Record, x: int)
    requires Acyclic(data)
    requires r in data && IsChildOf(r, x)
    ensures Rank(data)(r.id.value) < Rank(data)(x)
  {
  }
}

=== FILE: render_nested.dfy ===
/** The nested-list renderer and the menu renderer (src/FastTree.php,
    getTreeUl and getTreeMenu): each child's template is filled in, and its
    own rendered children are wrapped in a tag and put where the template
    says `@childlist`. */
module NestedRender {
  import opened PhpValues
  import opened Records
  import opened Substitution
  import opened Lookup
  import opened TreeArray
  import opened Templates

  /** The rendered children wrapped in an opening tag (the tag name, a
      space and the attributes) and a closing tag; nothing when the
      rendering is PHP-false. */
  function Wrap(tag: string, attr: string, d: string): string {
    if Truthy(d) then "<" + tag + " " + attr + ">" + d + "</" + tag + ">" else ""
  }

  /** A record's row without its `child` field, as both renderers start. */
  function Unchilded(t: FastTree, k: Record): (row: map<string, string>)
    ensures "child" !in row
    ensures forall f :: f in Row(k, t.pidName) && f != "child" ==> f in row && row[f] == Row(k, t.pidName)[f]
    ensures forall f :: f in row ==> f in Row(k, t.pidName)
  {
    Row(k, t.pidName) - {"child"}
  }

  // ---------------------------------------------------------------------
  // getTreeUl

  function UlFields(t: FastTree, k: Record, sel: IdArg, dis: IdArg): map<string, string> {
    Fields(Unchilded(t, k), Marks(sel, dis, IdOf(k), true))
  }

  /** One list item: the template filled in from the record, then its
      `@childlist` replaced by the wrapped children. */
  function UlItem(t: FastTree, k: Record, childData: string, tpl: string,
                  sel: IdArg, dis: IdArg, tag: string, attr: string): string
  {
    Strtr(Strtr(tpl, UlFields(t, k, sel, dis)), map["@childlist" := Wrap(tag, attr, childData)])
  }

  /** getTreeUl: one item per child of `x`, each carrying its own nested
      list. */
  function GetTreeUl(t: FastTree, x: int, tpl: string, sel: IdArg, dis: IdArg, tag: string, attr: string): (s: string)
    requires Acyclic(t.data)
    ensures GetChild(t.data, x) == [] ==> s == ""
    decreases Rank(t.data)(x), 1, 0
  {
    UlFrom(t, x, GetChild(t.data, x), tpl, sel, dis, tag, attr)
  }

  function UlFrom(t: FastTree, x: int, kids: seq<Record>, tpl: string, sel: IdArg, dis: IdArg,
                  tag: string, attr: string): (s: string)
    requires Acyclic(t.data)
    requires forall k :: k in kids ==> k in t.data && IsChildOf(k, x)
    ensures kids == [] ==> s == ""
    decreases Rank(t.data)(x), 0, |kids|
  {
    if kids == [] then ""
    else
      var k := kids[0];
      ChildBelow(t.data, k, x);
      UlItem(t, k, GetTreeUl(t, k.id.value, tpl, sel, dis, tag, attr), tpl, sel, dis, tag, attr)
      + UlFrom(t, x, kids[1..], tpl, sel, dis, tag, attr)
  }

  /** Reference rendering of a tree array as nested lists. */
  function UlOf(t: FastTree, nodes: seq<TreeNode>, tpl: string, sel: IdArg, dis: IdArg, tag: string, attr: string): string
    decreases nodes
  {
    if nodes == [] then ""
    else
      UlItem(t, nodes[0].rec, UlOf(t, nodes[0].childList, tpl, sel, dis, tag, attr), tpl, sel, dis, tag, attr)
      + UlOf(t, nodes[1..], tpl, sel, dis, tag, attr)
  }

  lemma {:induction false} UlFromIsUlOf(t: FastTree, x: int, kids: seq<Record>, tpl: string, sel: IdArg, dis: IdArg,
                                        tag: string, attr: string, prefix: string)
    requires Acyclic(t.data)
    requires forall k :: k in kids ==> k in t.data && IsChildOf(k, x)
    ensures UlFrom(t, x, kids, tpl, sel, dis, tag, attr) == UlOf(t, ArrayFrom(t, x, kids, prefix), tpl, sel, dis, tag, attr)
    decreases Rank(t.data)(x), |kids|
  {
    if kids != [] {
      var k := kids[0];
      var last := |kids| == 1;
      ChildBelow(t.data, k, x);
      var nodes := ArrayFrom(t, x, kids, prefix);
      var rest := ArrayFrom(t, x, kids[1..], prefix);
      assert nodes[1..] == rest;
      var cp := Connectors.ChildPrefix(t, prefix, last);
      assert nodes[0].childList == GetTreeArray(t, k.id.value, cp);
      UlFromIsUlOf(t, k.id.value, GetChild(t.data, k.id.value), tpl, sel, dis, tag, attr, cp);
      UlFromIsUlOf(t, x, kids[1..], tpl, sel, dis, tag, attr, prefix);
    }
  }

  /** getTreeUl renders the nesting of getTreeArray (whatever its prefix). */
  lemma GetTreeUlIsUlOf(t: FastTree, x: int, tpl: string, sel: IdArg, dis: IdArg, tag: string, attr: string, prefix: string)
    requires Acyclic(t.data)
    ensures GetTreeUl(t, x, tpl, sel, dis, tag, attr) == UlOf(t, GetTreeArray(t, x, prefix), tpl, sel, dis, tag, attr)
  {
    UlFromIsUlOf(t, x, GetChild(t.data, x), tpl, sel, dis, tag, attr, prefix);
  }

  lemma UlPlainItem(t: FastTree, k: Record, childData: string, tpl: string, sel: IdArg, dis: IdArg, tag: string, attr: string)
    requires Plain(tpl)
    ensures UlItem(t, k, childData, tpl, sel, dis, tag, attr) == tpl
  {
    assert forall i :: 0 <= i < |tpl| ==> tpl[i] != '@';
    StrtrPlain(tpl, UlFields(t, k, sel, dis));
    StrtrPlain(tpl, map["@childlist" := Wrap(tag, attr, childData)]);
  }

  lemma {:induction false} UlFromPlain(t: FastTree, x: int, kids: seq<Record>, tpl: string, sel: IdArg, dis: IdArg,
                                       tag: string, attr: string)
    requires Acyclic(t.data)
    requires forall k :: k in kids ==> k in t.data && IsChildOf(k, x)
    requires Plain(tpl)
    ensures UlFrom(t, x, kids, tpl, sel, dis, tag, attr) == Repeat(tpl, |kids|)
    decreases |kids|
  {
    if kids != [] {
      UlFromPlain(t, x, kids[1..], tpl, sel, dis, tag, attr);
      UlFromPlainStep(t, x, kids, tpl, sel, dis, tag, attr);
    }
  }

  lemma UlFromPlainStep(t: FastTree, x: int, kids: seq<Record>, tpl: string, sel: IdArg, dis: IdArg,
                        tag: string, attr: string)
    requires Acyclic(t.data)
    requires forall k :: k in kids ==> k in t.data && IsChildOf(k, x)
    requires Plain(tpl) && kids != []
    requires UlFrom(t, x, kids[1..], tpl, sel, dis, tag, attr) == Repeat(tpl, |kids| - 1)
    ensures UlFrom(t, x, kids, tpl, sel, dis, tag, attr) == Repeat(tpl, |kids|)
  {
    var k := kids[0];
    ChildBelow(t.data, k, x);
    var sub := GetTreeUl(t, k.id.value, tpl, sel, dis, tag, attr);
    UlPlainItem(t, k, sub, tpl, sel, dis, tag, attr);
    assert UlFrom(t, x, kids, tpl, sel, dis, tag, attr)
        == UlItem(t, k, sub, tpl, sel, dis, tag, attr) + UlFrom(t, x, kids[1..], tpl, sel, dis, tag, attr);
  }

  /** Nesting happens only through `@childlist`: a template without
      placeholders appears once per direct child and the grandchildren
      vanish. */
  lemma GetTreeUlPlain(t: FastTree, x: int, tpl: string, sel: IdArg, dis: IdArg, tag: string, attr: string)
    requires Acyclic(t.data)
    requires Plain(tpl)
    ensures GetTreeUl(t, x, tpl, sel, dis, tag, attr) == Repeat(tpl, |GetChild(t.data, x)|)
  {
    UlFromPlain(t, x, GetChild(t.data, x), tpl, sel, dis, tag, attr);
  }

  /** `@childlist` standing alone becomes the wrapped children, which are
      not scanned again, provided the record has no field whose
      placeholder is a prefix of `@childlist`. */
  lemma UlChildListAlone(t: FastTree, k: Record, childData: string, sel: IdArg, dis: IdArg, tag: string, attr: string)
    requires NoKeyAt("@childlist", UlFields(t, k, sel, dis))
    ensures UlItem(t, k, childData, "@childlist", sel, dis, tag, attr) == Wrap(tag, attr, childData)
  {
    var m := UlFields(t, k, sel, dis);
    MenuKeyShape("@childlist");
    StrtrUnkeyed("@childlist", m);
    StrtrWholeKey("@childlist", map["@childlist" := Wrap(tag, attr, childData)]);
  }

  // ---------------------------------------------------------------------
  // getTreeMenu

  const Caret: string := "<i class=\"fa fa-angle-left\"></i>"

  /** The placeholders the menu fills in after the record's own fields. */
  const MenuKeys: set<string> := {"@childlist", "@url", "@addtabs", "@caret", "@badge", "@class"}

  /** The record's substitution map; the menu tests the markers without
      first testing the id arguments themselves. */
  function MenuSub(t: FastTree, k: Record, sel: IdArg, dis: IdArg): map<string, string> {
    Fields(Unchilded(t, k), Marks(sel, dis, IdOf(k), false))
  }

  /** The first pass leaves `@url`, `@caret` and `@class` for the second. */
  function FirstPass(sub: map<string, string>): (m: map<string, string>)
    ensures AtKeys(sub) ==> AtKeys(m)
    ensures "@url" !in m && "@caret" !in m && "@class" !in m
    ensures forall key :: key in sub && key != "@url" && key != "@caret" && key != "@class" ==> key in m && m[key] == sub[key]
  {
    sub - {"@url", "@caret", "@class"}
  }

  /** The six values of the second pass. */
  datatype MenuValues = MenuValues(childList: string, url: string, addtabs: string,
                                   caret: string, badge: string, cls: string)

  /** The second-pass map. */
  function MenuMap(v: MenuValues): (m: map<string, string>)
    ensures m.Keys == MenuKeys
    ensures m["@childlist"] == v.childList && m["@url"] == v.url && m["@addtabs"] == v.addtabs
    ensures m["@caret"] == v.caret && m["@badge"] == v.badge && m["@class"] == v.cls
  {
    map["@childlist" := v.childList, "@url" := v.url, "@addtabs" := v.addtabs,
        "@caret" := v.caret, "@badge" := v.badge, "@class" := v.cls]
  }

  /** The second-pass values: the nested list, the link, the tab marker,
      the caret, the badge and the class list. */
  function MenuFields(t: FastTree, k: Record, sel: IdArg, dis: IdArg, childData: string,
                      tag: string, attr: string): MenuValues
  {
    var sub := MenuSub(t, k, sel, dis);
    var selected := Marker(sel, IdOf(k), false, "selected");
    var disabled := Marker(dis, IdOf(k), false, "disabled");
    var childList := Strtr(Wrap(tag, attr, childData), map["@class" := if Truthy(childData) then "last" else ""]);
    var noUrl := Truthy(childData) || "@url" !in sub;
    MenuValues(
      childList,
      if noUrl then "javascript:;" else sub["@url"],
      if noUrl then "" else (if '?' in sub["@url"] then "&" else "?") + "ref=addtabs",
      if Truthy(childData) && ("@badge" !in sub || !Truthy(sub["@badge"])) then Caret else "",
      if "@badge" in sub then sub["@badge"] else "",
      (if Truthy(selected) then " active" else "") + (if Truthy(disabled) then " disabled" else "")
      + (if Truthy(childData) then " treeview" else ""))
  }

  /** The nested list is filled in exactly for PHP-true children. */
  lemma MenuChildList(t: FastTree, k: Record, sel: IdArg, dis: IdArg, childData: string, tag: string, attr: string)
    ensures MenuFields(t, k, sel, dis, childData, tag, attr).childList == "" <==> !Truthy(childData)
  {
    WrapNonEmpty(tag, attr, childData, map["@class" := if Truthy(childData) then "last" else ""]);
  }

  /** The link is the record's `url`, unless the item has a submenu or no
      url, when it is "javascript:;" and no tab marker is added; the tab
      marker is joined by '&' when the url already has a query. */
  lemma MenuUrl(t: FastTree, k: Record, sel: IdArg, dis: IdArg, childData: string, tag: string, attr: string)
    ensures var m := MenuFields(t, k, sel, dis, childData, tag, attr); var row := Row(k, t.pidName);
      && m.url == (if Truthy(childData) || "url" !in row then "javascript:;" else row["url"])
      && m.addtabs == (if Truthy(childData) || "url" !in row then ""
                           else (if '?' in row["url"] then "&" else "?") + "ref=addtabs")
  {
    MenuSubFacts(t, k, sel, dis);
  }

  /** The caret marks a submenu, unless the record has a PHP-true badge;
      the badge is the record's own or "". */
  lemma MenuCaretBadge(t: FastTree, k: Record, sel: IdArg, dis: IdArg, childData: string, tag: string, attr: string)
    ensures var m := MenuFields(t, k, sel, dis, childData, tag, attr); var row := Row(k, t.pidName);
      && m.caret == (if Truthy(childData) && !Truthy(Get(row, "badge")) then Caret else "")
      && m.badge == Get(row, "badge")
  {
    MenuSubFacts(t, k, sel, dis);
  }

  /** The class list: " active" for a selected record, " disabled" for a
      disabled one, " treeview" for one with a submenu, in that order. */
  lemma MenuClass(t: FastTree, k: Record, sel: IdArg, dis: IdArg, childData: string, tag: string, attr: string)
    ensures MenuFields(t, k, sel, dis, childData, tag, attr).cls
         == (if Flag(sel, IdOf(k), false) then " active" else "")
            + (if Flag(dis, IdOf(k), false) then " disabled" else "")
            + (if Truthy(childData) then " treeview" else "")
  {
  }

  /** `@url` and `@badge` read the record's own fields. */
  lemma MenuSubFacts(t: FastTree, k: Record, sel: IdArg, dis: IdArg)
    ensures var sub := MenuSub(t, k, sel, dis); var row := Row(k, t.pidName);
      && ("@url" in sub <==> "url" in row) && ("url" in row ==> sub["@url"] == row["url"])
      && ("@badge" in sub <==> "badge" in row) && ("badge" in row ==> sub["@badge"] == row["badge"])
  {
    var sub := MenuSub(t, k, sel, dis);
    var extra := Marks(sel, dis, IdOf(k), false);
    assert "url" !in extra && "badge" !in extra;
    AtNames();
  }

  /** The wrapper of PHP-true children is never empty, whatever the
      substitution does to it. */
  lemma WrapNonEmpty(tag: string, attr: string, d: string, m: map<string, string>)
    requires AtKeys(m)
    ensures Truthy(d) ==> Strtr(Wrap(tag, attr, d), m) != ""
    ensures !Truthy(d) ==> Strtr(Wrap(tag, attr, d), m) == ""
  {
    if Truthy(d) {
      var w := Wrap(tag, attr, d);
      assert w[0] == '<';
      assert LongestKey(w, m, |w|) == 0 by {
        forall l | 1 <= l <= |w| ensures w[..l] !in m {
          assert w[..l][0] == '<';
        }
      }
    }
  }

  /** One menu item: a first pass with the record's own fields (except
      `@url`, `@caret` and `@class`), then a second pass with MenuFields. */
  function MenuItem(t: FastTree, k: Record, childData: string, tpl: string,
                    sel: IdArg, dis: IdArg, tag: string, attr: string): string
  {
    Strtr(Strtr(tpl, FirstPass(MenuSub(t, k, sel, dis))), MenuMap(MenuFields(t, k, sel, dis, childData, tag, attr)))
  }

  /** getTreeMenu: one item per child of `x`, each with its own submenu. */
  function GetTreeMenu(t: FastTree, x: int, tpl: string, sel: IdArg, dis: IdArg, tag: string, attr: string): (s: string)
    requires Acyclic(t.data)
    ensures GetChild(t.data, x) == [] ==> s == ""
    decreases Rank(t.data)(x), 1, 0
  {
    MenuFrom(t, x, GetChild(t.data, x), tpl, sel, dis, tag, attr)
  }

  function MenuFrom(t: FastTree, x: int, kids: seq<Record>, tpl: string, sel: IdArg, dis: IdArg,
                    tag: string, attr: string): (s: string)
    requires Acyclic(t.data)
    requires forall k :: k in kids ==> k in t.data && IsChildOf(k, x)
    ensures kids == [] ==> s == ""
    decreases Rank(t.data)(x), 0, |kids|
  {
    if kids == [] then ""
    else
      var k := kids[0];
      ChildBelow(t.data, k, x);
      MenuItem(t, k, GetTreeMenu(t, k.id.value, tpl, sel, dis, tag, attr), tpl, sel, dis, tag, attr)
      + MenuFrom(t, x, kids[1..], tpl, sel, dis, tag, attr)
  }

  /** Reference rendering of a tree array as a menu. */
  function MenuOf(t: FastTree, nodes: seq<TreeNode>, tpl: string, sel: IdArg, dis: IdArg, tag: string, attr: string): string
    decreases nodes
  {
    if nodes == [] then ""
    else
      MenuItem(t, nodes[0].rec, MenuOf(t, nodes[0].childList, tpl, sel, dis, tag, attr), tpl, sel, dis, tag, attr)
      + MenuOf(t, nodes[1..], tpl, sel, dis, tag, attr)
  }

  lemma {:induction false} MenuFromIsMenuOf(t: FastTree, x: int, kids: seq<Record>, tpl: string, sel: IdArg, dis: IdArg,
                                            tag: string, attr: string, prefix: string)
    requires Acyclic(t.data)
    requires forall k :: k in kids ==> k in t.data && IsChildOf(k, x)
    ensures MenuFrom(t, x, kids, tpl, sel, dis, tag, attr) == MenuOf(t, ArrayFrom(t, x, kids, prefix), tpl, sel, dis, tag, attr)
    decreases Rank(t.data)(x), |kids|
  {
    if kids != [] {
      var k := kids[0];
      var last := |kids| == 1;
      ChildBelow(t.data, k, x);
      var nodes := ArrayFrom(t, x, kids, prefix);
      var rest := ArrayFrom(t, x, kids[1..], prefix);
      assert nodes[1..] == rest;
      var cp := Connectors.ChildPrefix(t, prefix, last);
      assert nodes[0].childList == GetTreeArray(t, k.id.value, cp);
      MenuFromIsMenuOf(t, k.id.value, GetChild(t.data, k.id.value), tpl, sel, dis, tag, attr, cp);
      MenuFromIsMenuOf(t, x, kids[1..], tpl, sel, dis, tag, attr, prefix);
    }
  }

  /** getTreeMenu renders the nesting of getTreeArray (whatever its prefix). */
  lemma GetTreeMenuIsMenuOf(t: FastTree, x: int, tpl: string, sel: IdArg, dis: IdArg, tag: string, attr: string, prefix: string)
    requires Acyclic(t.data)
    ensures GetTreeMenu(t, x, tpl, sel, dis, tag, attr) == MenuOf(t, GetTreeArray(t, x, prefix), tpl, sel, dis, tag, attr)
  {
    MenuFromIsMenuOf(t, x, GetChild(t.data, x), tpl, sel, dis, tag, attr, prefix);
  }

  /** A menu placeholder standing alone in the template renders as its
      second-pass value, provided the first pass has no key that is a
      prefix of it.  For `@url`, `@caret` and `@class` that holds even when
      the record has a field of that very name, since the first pass
      leaves those three out. */
  lemma MenuPlaceholderAlone(t: FastTree, k: Record, childData: string, key: string,
                             sel: IdArg, dis: IdArg, tag: string, attr: string)
    requires key in MenuKeys
    requires NoKeyAt(key, FirstPass(MenuSub(t, k, sel, dis)))
    ensures MenuItem(t, k, childData, key, sel, dis, tag, attr) == MenuMap(MenuFields(t, k, sel, dis, childData, tag, attr))[key]
  {
    MenuKeyShape(key);
    StrtrUnkeyed(key, FirstPass(MenuSub(t, k, sel, dis)));
    StrtrWholeKey(key, MenuMap(MenuFields(t, k, sel, dis, childData, tag, attr)));
  }

  lemma MenuKeyShape(key: string)
    requires key in MenuKeys
    ensures key != [] && key[0] == '@' && forall i :: 1 <= i < |key| ==> key[i] != '@'
  {
    if key == "@childlist" {
    } else if key == "@url" {
    } else if key == "@addtabs" {
    } else if key == "@caret" {
    } else if key == "@badge" {
    } else {
      assert key == "@class";
    }
  }
}

=== FILE: render_option.dfy ===
/** The option-list renderer (src/FastTree.php, getTree): one filled-in
    template per descendant, in pre-order, with the connector spacer and
    the selected/disabled markers. */
module OptionRender {
  import opened PhpValues
  import opened Records
  import opened Substitution
  import opened Lookup
  import opened Connectors
  import opened TreeArray
  import opened Closure
  import opened Templates

  /** The parent placeholder compares equal to 0: it holds the text "0",
      or it is missing, which reads as null and equals 0. */
  predicate RootRef(sub: map<string, string>, key: string) {
    key !in sub || sub[key] == "0"
  }

  /** The substitution map of one option. */
  function OptionFields(t: FastTree, k: Record, spacer: string, sel: IdArg, dis: IdArg): map<string, string> {
    Fields(Row(k, t.pidName), Marks(sel, dis, IdOf(k), true)["spacer" := spacer])
  }

  /** One option: the top template for a record whose parent field reads
      as 0 or that has children of its own (when the top template is
      PHP-true), the item template otherwise. */
  function OptionItem(t: FastTree, k: Record, spacer: string, hasChild: bool,
                      tpl: string, sel: IdArg, dis: IdArg, top: string): string
  {
    var sub := OptionFields(t, k, spacer, sel, dis);
    var chosen := if (RootRef(sub, "@" + t.pidName) || hasChild) && Truthy(top) then top else tpl;
    Strtr(chosen, sub)
  }

  /** getTree: the options for every descendant of `x`. */
  function GetTree(t: FastTree, x: int, tpl: string, sel: IdArg, dis: IdArg, prefix: string, top: string): (s: string)
    requires Acyclic(t.data)
    ensures GetChild(t.data, x) == [] ==> s == ""
    decreases Rank(t.data)(x), 1, 0
  {
    TreeFrom(t, x, GetChild(t.data, x), tpl, sel, dis, prefix, top)
  }

  function TreeFrom(t: FastTree, x: int, kids: seq<Record>, tpl: string, sel: IdArg, dis: IdArg,
                    prefix: string, top: string): (s: string)
    requires Acyclic(t.data)
    requires forall k :: k in kids ==> k in t.data && IsChildOf(k, x)
    ensures kids == [] ==> s == ""
    decreases Rank(t.data)(x), 0, |kids|
  {
    if kids == [] then ""
    else
      var k := kids[0];
      var last := |kids| == 1;
      ChildBelow(t.data, k, x);
      OptionItem(t, k, Spacer(t, prefix, last), GetChild(t.data, k.id.value) != [], tpl, sel, dis, top)
      + GetTree(t, k.id.value, tpl, sel, dis, ChildPrefix(t, prefix, last), top)
      + TreeFrom(t, x, kids[1..], tpl, sel, dis, prefix, top)
  }

  // ---------------------------------------------------------------------
  // Reference rendering of a tree array

  /** The options of an already built tree array: each entry with its own
      spacer, then its children, then its following siblings. */
  function TreeOf(t: FastTree, nodes: seq<TreeNode>, tpl: string, sel: IdArg, dis: IdArg, top: string): string
    decreases nodes
  {
    if nodes == [] then ""
    else
      var n := nodes[0];
      OptionItem(t, n.rec, n.spacer, n.childList != [], tpl, sel, dis, top)
      + TreeOf(t, n.childList, tpl, sel, dis, top)
      + TreeOf(t, nodes[1..], tpl, sel, dis, top)
  }

  lemma TreeOfCons(t: FastTree, n: TreeNode, rest: seq<TreeNode>, tpl: string, sel: IdArg, dis: IdArg, top: string)
    ensures TreeOf(t, [n] + rest, tpl, sel, dis, top)
         == OptionItem(t, n.rec, n.spacer, n.childList != [], tpl, sel, dis, top)
            + TreeOf(t, n.childList, tpl, sel, dis, top) + TreeOf(t, rest, tpl, sel, dis, top)
  {
    assert ([n] + rest)[0] == n && ([n] + rest)[1..] == rest;
  }

  lemma {:induction false} TreeFromIsTreeOf(t: FastTree, x: int, kids: seq<Record>, tpl: string,
                                            sel: IdArg, dis: IdArg, prefix: string, top: string)
    requires Acyclic(t.data)
    requires forall k :: k in kids ==> k in t.data && IsChildOf(k, x)
    ensures TreeFrom(t, x, kids, tpl, sel, dis, prefix, top) == TreeOf(t, ArrayFrom(t, x, kids, prefix), tpl, sel, dis, top)
    decreases Rank(t.data)(x), |kids|
  {
    if kids != [] {
      var k := kids[0];
      var last := |kids| == 1;
      ChildBelow(t.data, k, x);
      var nodes := ArrayFrom(t, x, kids, prefix);
      var rest := ArrayFrom(t, x, kids[1..], prefix);
      assert nodes == [nodes[0]] + rest;
      var cp := ChildPrefix(t, prefix, last);
      assert nodes[0].childList == GetTreeArray(t, k.id.value, cp);
      TreeFromIsTreeOf(t, k.id.value, GetChild(t.data, k.id.value), tpl, sel, dis, cp, top);
      TreeFromIsTreeOf(t, x, kids[1..], tpl, sel, dis, prefix, top);
      TreeOfCons(t, nodes[0], rest, tpl, sel, dis, top);
    }
  }

  /** getTree renders exactly the tree array getTreeArray builds for the
      same node and prefix: the same entries, the same spacers, the same
      nesting. */
  lemma GetTreeIsTreeOf(t: FastTree, x: int, tpl: string, sel: IdArg, dis: IdArg, prefix: string, top: string)
    requires Acyclic(t.data)
    ensures GetTree(t, x, tpl, sel, dis, prefix, top) == TreeOf(t, GetTreeArray(t, x, prefix), tpl, sel, dis, top)
  {
    TreeFromIsTreeOf(t, x, GetChild(t.data, x), tpl, sel, dis, prefix, top);
  }

  // ---------------------------------------------------------------------
  // Properties of single options

  /** With a parent field other than the renderer's own keys, the top
      template is chosen exactly for a record whose parent is 0 (or
      missing) or that has children, and only when it is PHP-true. */
  lemma TopTemplateChoice(t: FastTree, k: Record, spacer: string, hasChild: bool,
                          tpl: string, sel: IdArg, dis: IdArg, top: string)
    requires t.pidName != "id" && t.pidName != "selected" && t.pidName != "disabled" && t.pidName != "spacer"
    ensures OptionItem(t, k, spacer, hasChild, tpl, sel, dis, top)
         == Strtr(if (ParentOf(k) == 0 || hasChild) && Truthy(top) then top else tpl,
                  OptionFields(t, k, spacer, sel, dis))
  {
    var sub := OptionFields(t, k, spacer, sel, dis);
    var extra := Marks(sel, dis, IdOf(k), true)["spacer" := spacer];
    var row := Row(k, t.pidName);
    assert t.pidName !in extra;
    if k.pid.Some? {
      assert "@" + t.pidName in sub && sub["@" + t.pidName] == IntToString(k.pid.value);
    } else {
      assert t.pidName !in row;
      assert "@" + t.pidName !in sub;
    }
  }

  /** The `@spacer` placeholder alone renders as the option's spacer. */
  lemma SpacerAlone(t: FastTree, k: Record, spacer: string, hasChild: bool, sel: IdArg, dis: IdArg, top: string)
    requires !Truthy(top)
    ensures OptionItem(t, k, spacer, hasChild, "@spacer", sel, dis, top) == spacer
  {
    var sub := OptionFields(t, k, spacer, sel, dis);
    var extra := Marks(sel, dis, IdOf(k), true)["spacer" := spacer];
    assert "spacer" in extra && extra["spacer"] == spacer;
    AtNames();
    assert "@spacer" in sub && sub["@spacer"] == spacer;
    StrtrWholeKey("@spacer", sub);
  }

  /** The spacers of a tree array, in pre-order. */
  function SpacerTrail(nodes: seq<TreeNode>): string
    decreases nodes
  {
    if nodes == [] then ""
    else nodes[0].spacer + SpacerTrail(nodes[0].childList) + SpacerTrail(nodes[1..])
  }

  lemma {:induction false} TreeOfSpacers(t: FastTree, nodes: seq<TreeNode>, sel: IdArg, dis: IdArg, top: string)
    requires !Truthy(top)
    ensures TreeOf(t, nodes, "@spacer", sel, dis, top) == SpacerTrail(nodes)
    decreases nodes
  {
    if nodes != [] {
      var n := nodes[0];
      SpacerAlone(t, n.rec, n.spacer, n.childList != [], sel, dis, top);
      TreeOfSpacers(t, n.childList, sel, dis, top);
      TreeOfSpacers(t, nodes[1..], sel, dis, top);
    }
  }

  /** Rendering only `@spacer` (without a PHP-true top template) yields the
      spacers of getTreeArray's entries in pre-order. */
  lemma GetTreeSpacers(t: FastTree, x: int, sel: IdArg, dis: IdArg, prefix: string, top: string)
    requires Acyclic(t.data)
    requires !Truthy(top)
    ensures GetTree(t, x, "@spacer", sel, dis, prefix, top) == SpacerTrail(GetTreeArray(t, x, prefix))
  {
    GetTreeIsTreeOf(t, x, "@spacer", sel, dis, prefix, top);
    TreeOfSpacers(t, GetTreeArray(t, x, prefix), sel, dis, top);
  }

  lemma {:induction false} TreeOfPlain(t: FastTree, nodes: seq<TreeNode>, tpl: string, sel: IdArg, dis: IdArg, top: string)
    requires Plain(tpl) && !Truthy(top)
    ensures TreeOf(t, nodes, tpl, sel, dis, top) == Repeat(tpl, Count(nodes))
    decreases nodes
  {
    if nodes != [] {
      TreeOfPlain(t, nodes[0].childList, tpl, sel, dis, top);
      TreeOfPlain(t, nodes[1..], tpl, sel, dis, top);
      TreeOfPlainStep(t, nodes, tpl, sel, dis, top);
    }
  }

  lemma TreeOfPlainStep(t: FastTree, nodes: seq<TreeNode>, tpl: string, sel: IdArg, dis: IdArg, top: string)
    requires Plain(tpl) && !Truthy(top) && nodes != []
    requires TreeOf(t, nodes[0].childList, tpl, sel, dis, top) == Repeat(tpl, Count(nodes[0].childList))
    requires TreeOf(t, nodes[1..], tpl, sel, dis, top) == Repeat(tpl, Count(nodes[1..]))
    ensures TreeOf(t, nodes, tpl, sel, dis, top) == Repeat(tpl, Count(nodes))
  {
    var n := nodes[0];
    PlainItem(t, n.rec, n.spacer, n.childList != [], tpl, sel, dis, top);
    TreeOfUnfold(t, nodes, tpl, sel, dis, top);
    RepeatStep(tpl, TreeOf(t, nodes, tpl, sel, dis, top),
               OptionItem(t, n.rec, n.spacer, n.childList != [], tpl, sel, dis, top),
               TreeOf(t, n.childList, tpl, sel, dis, top), TreeOf(t, nodes[1..], tpl, sel, dis, top),
               Count(n.childList), Count(nodes[1..]), Count(nodes));
  }

  lemma TreeOfUnfold(t: FastTree, nodes: seq<TreeNode>, tpl: string, sel: IdArg, dis: IdArg, top: string)
    requires nodes != []
    ensures TreeOf(t, nodes, tpl, sel, dis, top)
         == OptionItem(t, nodes[0].rec, nodes[0].spacer, nodes[0].childList != [], tpl, sel, dis, top)
            + TreeOf(t, nodes[0].childList, tpl, sel, dis, top) + TreeOf(t, nodes[1..], tpl, sel, dis, top)
  {
  }

  lemma PlainItem(t: FastTree, k: Record, spacer: string, hasChild: bool, tpl: string, sel: IdArg, dis: IdArg, top: string)
    requires Plain(tpl) && !Truthy(top)
    ensures OptionItem(t, k, spacer, hasChild, tpl, sel, dis, top) == tpl
  {
    assert forall i :: 0 <= i < |tpl| ==> tpl[i] != '@';
    StrtrPlain(tpl, OptionFields(t, k, spacer, sel, dis));
  }

  /** A template without placeholders, with a PHP-false top template, is
      emitted once per record getChildren returns for `x` (given unique
      identifiers, so that getChild collapses nothing), whatever the
      markers and prefix. */
  lemma PlainTemplateOncePerDescendant(t: FastTree, x: int, tpl: string, sel: IdArg, dis: IdArg, prefix: string, top: string)
    requires Acyclic(t.data) && UniqueIds(t.data)
    requires Plain(tpl) && !Truthy(top)
    ensures GetTree(t, x, tpl, sel, dis, prefix, top) == Repeat(tpl, |GetChildren(t.data, x, false)|)
  {
    GetTreeIsTreeOf(t, x, tpl, sel, dis, prefix, top);
    TreeOfPlain(t, GetTreeArray(t, x, prefix), tpl, sel, dis, top);
    TreeArrayCount(t, x, prefix);
  }
}

=== FILE: render_special.dfy ===
/** The dual-template renderer (src/FastTree.php, getTreeSpecial): the
    option-list traversal with a second template for disabled records and
    its own prefix rule. */
module SpecialRender {
  import opened PhpValues
  import opened Records
  import opened Substitution
  import opened Lookup
  import opened Connectors
  import opened Templates
  import opened TreeArray
  import opened OptionRender

  /** One entry: the second template when the record's `@disabled` marker
      is PHP-true, the first one otherwise. */
  function SpecialItem(t: FastTree, k: Record, spacer: string, tpl1: string, tpl2: string,
                       sel: IdArg, dis: IdArg): string
  {
    var sub := OptionFields(t, k, spacer, sel, dis);
    Strtr(if "@disabled" !in sub || !Truthy(sub["@disabled"]) then tpl1 else tpl2, sub)
  }

  /** getTreeSpecial: one entry per descendant of `x`, in pre-order. */
  function GetTreeSpecial(t: FastTree, x: int, tpl1: string, tpl2: string, sel: IdArg, dis: IdArg, prefix: string): (s: string)
    requires Acyclic(t.data)
    ensures GetChild(t.data, x) == [] ==> s == ""
    decreases Rank(t.data)(x), 1, 0
  {
    SpecialFrom(t, x, GetChild(t.data, x), tpl1, tpl2, sel, dis, prefix)
  }

  function SpecialFrom(t: FastTree, x: int, kids: seq<Record>, tpl1: string, tpl2: string,
                       sel: IdArg, dis: IdArg, prefix: string): (s: string)
    requires Acyclic(t.data)
    requires forall k :: k in kids ==> k in t.data && IsChildOf(k, x)
    ensures kids == [] ==> s == ""
    decreases Rank(t.data)(x), 0, |kids|
  {
    if kids == [] then ""
    else
      var k := kids[0];
      var last := |kids| == 1;
      ChildBelow(t.data, k, x);
      SpecialItem(t, k, Spacer(t, prefix, last), tpl1, tpl2, sel, dis)
      + GetTreeSpecial(t, k.id.value, tpl1, tpl2, sel, dis, SpecialChildPrefix(t, prefix, last))
      + SpecialFrom(t, x, kids[1..], tpl1, tpl2, sel, dis, prefix)
  }

  /** The second template is used exactly for a disabled record. */
  lemma SpecialTemplateChoice(t: FastTree, k: Record, spacer: string, tpl1: string, tpl2: string, sel: IdArg, dis: IdArg)
    ensures SpecialItem(t, k, spacer, tpl1, tpl2, sel, dis)
         == Strtr(if Flag(dis, IdOf(k), true) then tpl2 else tpl1, OptionFields(t, k, spacer, sel, dis))
  {
    var extra := Marks(sel, dis, IdOf(k), true)["spacer" := spacer];
    var sub := OptionFields(t, k, spacer, sel, dis);
    var d := Marker(dis, IdOf(k), true, "disabled");
    assert "disabled" in extra && extra["disabled"] == d;
    AtNames();
    assert "@disabled" in sub && sub["@disabled"] == d;
    assert Truthy(d) <==> Flag(dis, IdOf(k), true);
  }

  lemma {:induction false} SpecialFromNoDisabled(t: FastTree, x: int, kids: seq<Record>, tpl1: string, tpl2: string,
                                                 sel: IdArg, dis: IdArg, prefix: string)
    requires Acyclic(t.data)
    requires forall k :: k in kids ==> k in t.data && IsChildOf(k, x)
    requires !ArgTruthy(dis)
    ensures SpecialFrom(t, x, kids, tpl1, tpl2, sel, dis, prefix) == SpecialFrom(t, x, kids, tpl1, tpl1, sel, dis, prefix)
    decreases Rank(t.data)(x), |kids|
  {
    if kids != [] {
      var k := kids[0];
      var last := |kids| == 1;
      ChildBelow(t.data, k, x);
      var sp := Spacer(t, prefix, last);
      SpecialTemplateChoice(t, k, sp, tpl1, tpl2, sel, dis);
      SpecialTemplateChoice(t, k, sp, tpl1, tpl1, sel, dis);
      SpecialFromNoDisabled(t, k.id.value, GetChild(t.data, k.id.value), tpl1, tpl2, sel, dis, SpecialChildPrefix(t, prefix, last));
      SpecialFromNoDisabled(t, x, kids[1..], tpl1, tpl2, sel, dis, prefix);
    }
  }

  /** With a PHP-false disabled argument nothing is disabled, so the second
      template is never used. */
  lemma SpecialNoDisabled(t: FastTree, x: int, tpl1: string, tpl2: string, sel: IdArg, dis: IdArg, prefix: string)
    requires Acyclic(t.data)
    requires !ArgTruthy(dis)
    ensures GetTreeSpecial(t, x, tpl1, tpl2, sel, dis, prefix) == GetTreeSpecial(t, x, tpl1, tpl1, sel, dis, prefix)
  {
    SpecialFromNoDisabled(t, x, GetChild(t.data, x), tpl1, tpl2, sel, dis, prefix);
  }

  lemma {:induction false} SpecialFromIsTreeFrom(t: FastTree, x: int, kids: seq<Record>, tpl: string,
                                                 sel: IdArg, dis: IdArg, prefix: string)
    requires Acyclic(t.data)
    requires forall k :: k in kids ==> k in t.data && IsChildOf(k, x)
    requires t.nbsp == ""
    ensures SpecialFrom(t, x, kids, tpl, tpl, sel, dis, prefix) == TreeFrom(t, x, kids, tpl, sel, dis, prefix, "")
    decreases Rank(t.data)(x), |kids|
  {
    if kids != [] {
      var k := kids[0];
      var last := |kids| == 1;
      ChildBelow(t.data, k, x);
      var sp := Spacer(t, prefix, last);
      var cp := ChildPrefix(t, prefix, last);
      assert SpecialChildPrefix(t, prefix, last) == cp;
      SpecialTemplateChoice(t, k, sp, tpl, tpl, sel, dis);
      SpecialFromIsTreeFrom(t, k.id.value, GetChild(t.data, k.id.value), tpl, sel, dis, cp);
      SpecialFromIsTreeFrom(t, x, kids[1..], tpl, sel, dis, prefix);
    }
  }

  /** With one template for both cases, an empty spacer token and no top
      template, the dual-template renderer and the option-list renderer
      produce the same text for any prefix: the two prefix rules differ
      only by a spacer token under a last sibling. */
  lemma SpecialIsOptionList(t: FastTree, x: int, tpl: string, sel: IdArg, dis: IdArg, prefix: string)
    requires Acyclic(t.data)
    requires t.nbsp == ""
    ensures GetTreeSpecial(t, x, tpl, tpl, sel, dis, prefix) == GetTree(t, x, tpl, sel, dis, prefix, "")
  {
    SpecialFromIsTreeFrom(t, x, GetChild(t.data, x), tpl, sel, dis, prefix);
  }

  // ---------------------------------------------------------------------
  // The nested array getTreeSpecial walks

  /** The nested array getTreeSpecial walks: one entry per child getChild
      returns, with getTreeArray's spacer rule, but with each entry's own
      children indented by the dual-template prefix rule. */
  function SpecialArray(t: FastTree, x: int, prefix: string): (nodes: seq<TreeNode>)
    requires Acyclic(t.data)
    ensures |nodes| == |GetChild(t.data, x)|
    decreases Rank(t.data)(x), 1, 0
  {
    SpecialArrayFrom(t, x, GetChild(t.data, x), prefix)
  }

  function SpecialArrayFrom(t: FastTree, x: int, kids: seq<Record>, prefix: string): (nodes: seq<TreeNode>)
    requires Acyclic(t.data)
    requires forall k :: k in kids ==> k in t.data && IsChildOf(k, x)
    ensures |nodes| == |kids|
    decreases Rank(t.data)(x), 0, |kids|
  {
    if kids == [] then []
    else
      var last := |kids| == 1;
      var k := kids[0];
      ChildBelow(t.data, k, x);
      [TreeNode(k, Spacer(t, prefix, last), SpecialArray(t, k.id.value, SpecialChildPrefix(t, prefix, last)))]
      + SpecialArrayFrom(t, x, kids[1..], prefix)
  }

  lemma SpecialArrayCons(t: FastTree, x: int, kids: seq<Record>, prefix: string)
    requires Acyclic(t.data)
    requires forall k :: k in kids ==> k in t.data && IsChildOf(k, x)
    requires kids != []
    ensures forall k :: k in kids[1..] ==> k in t.data && IsChildOf(k, x)
    ensures kids[0] in t.data && IsChildOf(kids[0], x)
    ensures SpecialArrayFrom(t, x, kids, prefix)
         == [TreeNode(kids[0], Spacer(t, prefix, |kids| == 1),
                      SpecialArray(t, kids[0].id.value, SpecialChildPrefix(t, prefix, |kids| == 1)))]
            + SpecialArrayFrom(t, x, kids[1..], prefix)
  {
    assert kids[0] in kids;
    assert forall k :: k in kids[1..] ==> k in kids;
  }

  lemma {:induction false} SpecialArrayFromEntries(t: FastTree, x: int, kids: seq<Record>, prefix: string)
    requires Acyclic(t.data)
    requires forall k :: k in kids ==> k in t.data && IsChildOf(k, x)
    ensures forall i :: 0 <= i < |kids| ==>
              && SpecialArrayFrom(t, x, kids, prefix)[i].rec == kids[i]
              && SpecialArrayFrom(t, x, kids, prefix)[i].spacer == Spacer(t, prefix, i == |kids| - 1)
              && kids[i].id.Some?
              && SpecialArrayFrom(t, x, kids, prefix)[i].childList
                 == SpecialArray(t, kids[i].id.value, SpecialChildPrefix(t, prefix, i == |kids| - 1))
    decreases |kids|
  {
    if kids != [] {
      SpecialArrayCons(t, x, kids, prefix);
      SpecialArrayFromEntries(t, x, kids[1..], prefix);
      var nodes := SpecialArrayFrom(t, x, kids, prefix);
      var rest := SpecialArrayFrom(t, x, kids[1..], prefix);
      forall i | 0 <= i < |kids|
        ensures && nodes[i].rec == kids[i]
                && nodes[i].spacer == Spacer(t, prefix, i == |kids| - 1)
                && kids[i].id.Some?
                && nodes[i].childList == SpecialArray(t, kids[i].id.value, SpecialChildPrefix(t, prefix, i == |kids| - 1))
      {
        if i > 0 {
          assert nodes[i] == rest[i - 1] && kids[i] == kids[1..][i - 1];
          assert (i - 1 == |kids[1..]| - 1) == (i == |kids| - 1);
        }
      }
    }
  }

  /** Entry i of the array getTreeSpecial walks holds getChild's i-th
      record with getTreeArray's spacer (empty under a PHP-false prefix,
      the prefix and the corner glyph for the last child, the prefix and
      the branch glyph for the others), and its children are indented by
      the prefix plus the spacer token under the last child or a PHP-false
      prefix, and by the prefix plus the vertical glyph and the spacer
      token under any other child. */
  lemma SpecialArrayEntries(t: FastTree, x: int, prefix: string)
    requires Acyclic(t.data)
    ensures var nodes := SpecialArray(t, x, prefix);
      forall i :: 0 <= i < |nodes| ==>
        && nodes[i].rec == GetChild(t.data, x)[i]
        && nodes[i].spacer == (if !Truthy(prefix) then ""
                               else if i == |nodes| - 1 then prefix + t.icon.corner
                               else prefix + t.icon.branch)
        && nodes[i].rec.id.Some?
        && nodes[i].childList
           == SpecialArray(t, nodes[i].rec.id.value,
                           if i == |nodes| - 1 || !Truthy(prefix) then prefix + t.nbsp
                           else prefix + t.icon.vertical + t.nbsp)
  {
    SpecialArrayFromEntries(t, x, GetChild(t.data, x), prefix);
  }

  /** The dual-template rendering of a nested array: each entry with its own
      spacer, then its children, then its following siblings. */
  function SpecialOf(t: FastTree, nodes: seq<TreeNode>, tpl1: string, tpl2: string, sel: IdArg, dis: IdArg): string
    decreases nodes
  {
    if nodes == [] then ""
    else
      var n := nodes[0];
      SpecialItem(t, n.rec, n.spacer, tpl1, tpl2, sel, dis)
      + SpecialOf(t, n.childList, tpl1, tpl2, sel, dis)
      + SpecialOf(t, nodes[1..], tpl1, tpl2, sel, dis)
  }

  lemma SpecialOfCons(t: FastTree, n: TreeNode, rest: seq<TreeNode>, tpl1: string, tpl2: string, sel: IdArg, dis: IdArg)
    ensures SpecialOf(t, [n] + rest, tpl1, tpl2, sel, dis)
         == SpecialItem(t, n.rec, n.spacer, tpl1, tpl2, sel, dis)
            + SpecialOf(t, n.childList, tpl1, tpl2, sel, dis) + SpecialOf(t, rest, tpl1, tpl2, sel, dis)
  {
    assert ([n] + rest)[0] == n && ([n] + rest)[1..] == rest;
  }

  lemma {:induction false} SpecialFromIsSpecialOf(t: FastTree, x: int, kids: seq<Record>, tpl1: string, tpl2: string,
                                                  sel: IdArg, dis: IdArg, prefix: string)
    requires Acyclic(t.data)
    requires forall k :: k in kids ==> k in t.data && IsChildOf(k, x)
    ensures SpecialFrom(t, x, kids, tpl1, tpl2, sel, dis, prefix)
         == SpecialOf(t, SpecialArrayFrom(t, x, kids, prefix), tpl1, tpl2, sel, dis)
    decreases Rank(t.data)(x), |kids|
  {
    if kids != [] {
      var k := kids[0];
      var last := |kids| == 1;
      ChildBelow(t.data, k, x);
      SpecialArrayCons(t, x, kids, prefix);
      var nodes := SpecialArrayFrom(t, x, kids, prefix);
      var rest := SpecialArrayFrom(t, x, kids[1..], prefix);
      var cp := SpecialChildPrefix(t, prefix, last);
      assert nodes == [nodes[0]] + rest;
      assert nodes[0].childList == SpecialArray(t, k.id.value, cp);
      SpecialFromIsSpecialOf(t, k.id.value, GetChild(t.data, k.id.value), tpl1, tpl2, sel, dis, cp);
      SpecialFromIsSpecialOf(t, x, kids[1..], tpl1, tpl2, sel, dis, prefix);
      SpecialOfCons(t, nodes[0], rest, tpl1, tpl2, sel, dis);
    }
  }

  /** getTreeSpecial renders exactly the nested array it walks, entry by
      entry in pre-order, with that array's spacers. */
  lemma GetTreeSpecialIsSpecialOf(t: FastTree, x: int, tpl1: string, tpl2: string, sel: IdArg, dis: IdArg, prefix: string)
    requires Acyclic(t.data)
    ensures GetTreeSpecial(t, x, tpl1, tpl2, sel, dis, prefix)
         == SpecialOf(t, SpecialArray(t, x, prefix), tpl1, tpl2, sel, dis)
  {
    SpecialFromIsSpecialOf(t, x, GetChild(t.data, x), tpl1, tpl2, sel, dis, prefix);
  }

  lemma {:induction false} SpecialOfSpacers(t: FastTree, nodes: seq<TreeNode>, sel: IdArg, dis: IdArg)
    ensures SpecialOf(t, nodes, "@spacer", "@spacer", sel, dis) == SpacerTrail(nodes)
    decreases nodes
  {
    if nodes != [] {
      var n := nodes[0];
      SpecialTemplateChoice(t, n.rec, n.spacer, "@spacer", "@spacer", sel, dis);
      SpacerAlone(t, n.rec, n.spacer, false, sel, dis, "");
      SpecialOfSpacers(t, n.childList, sel, dis);
      SpecialOfSpacers(t, nodes[1..], sel, dis);
    }
  }

  /** Rendering only `@spacer` with getTreeSpecial yields, in pre-order, the
      spacers of the array it walks, whose nested prefixes follow the
      dual-template rule. */
  lemma GetTreeSpecialSpacers(t: FastTree, x: int, sel: IdArg, dis: IdArg, prefix: string)
    requires Acyclic(t.data)
    ensures GetTreeSpecial(t, x, "@spacer", "@spacer", sel, dis, prefix) == SpacerTrail(SpecialArray(t, x, prefix))
  {
    GetTreeSpecialIsSpecialOf(t, x, "@spacer", "@spacer", sel, dis, prefix);
    SpecialOfSpacers(t, SpecialArray(t, x, prefix), sel, dis);
  }
}

=== FILE: substitution.dfy ===
/** PHP's `strtr(string, array)`: a single left-to-right scan that, at every
    position, replaces the longest key of the map that starts there, copies
    a character through where no key starts, and never looks again at text
    it has already put into the output.  The empty key is never matched. */
module Substitution {

  /** Length of the longest non-empty key of `m` that is a prefix of `s` and
      at most `n` characters long; 0 when there is none. */
  function LongestKey(s: string, m: map<string, string>, n: nat): (len: nat)
    requires n <= |s|
    ensures len <= n
    ensures len > 0 ==> s[..len] in m
    ensures forall l :: len < l <= n ==> s[..l] !in m
    decreases n
  {
    if n == 0 then 0
    else if s[..n] in m then n
    else LongestKey(s, m, n - 1)
  }

  function Strtr(s: string, m: map<string, string>): string
    decreases |s|
  {
    if s == [] then []
    else
      var len := LongestKey(s, m, |s|);
      if len == 0 then [s[0]] + Strtr(s[1..], m)
      else m[s[..len]] + Strtr(s[len..], m)
  }

  // ---------------------------------------------------------------------
  // Reference description: a greedy parse of the input into literal
  // characters and keys.

  datatype Piece = Lit(c: char) | Key(k: string)

  /** The input text a parse covers. */
  function Source(ps: seq<Piece>): string
    decreases |ps|
  {
    if ps == [] then []
    else (match ps[0] case Lit(c) => [c] case Key(k) => k) + Source(ps[1..])
  }

  /** The text a parse produces: literals are copied, keys are replaced. */
  function Output(ps: seq<Piece>, m: map<string, string>): string
    decreases |ps|
  {
    if ps == [] then []
    else
      (match ps[0]
       case Lit(c) => [c]
       case Key(k) => if k in m then m[k] else k)
      + Output(ps[1..], m)
  }

  /** No non-empty key of `m` starts at the front of `s`. */
  ghost predicate NoKeyAt(s: string, m: map<string, string>) {
    forall l :: 1 <= l <= |s| ==> s[..l] !in m
  }

  /** No key longer than `n` starts at the front of `s`. */
  ghost predicate NoLongerKey(s: string, m: map<string, string>, n: nat) {
    forall l :: n < l <= |s| ==> s[..l] !in m
  }

  /** `ps` reads `s` from left to right, taking the longest key at every
      position where one starts and a single literal character elsewhere. */
  ghost predicate Greedy(ps: seq<Piece>, s: string, m: map<string, string>)
    decreases |ps|
  {
    if ps == [] then s == []
    else match ps[0]
      case Lit(c) =>
        s != [] && s[0] == c && NoKeyAt(s, m) && Greedy(ps[1..], s[1..], m)
      case Key(k) =>
        k != [] && k in m && k <= s && NoLongerKey(s, m, |k|)
        && Greedy(ps[1..], s[|k|..], m)
  }

  /** Any greedy parse covers exactly the input, and what it produces is
      what Strtr produces. */
  lemma {:induction false} GreedyIsStrtr(ps: seq<Piece>, s: string, m: map<string, string>)
    requires Greedy(ps, s, m)
    ensures Source(ps) == s
    ensures Output(ps, m) == Strtr(s, m)
    decreases |ps|
  {
    if ps != [] {
      var len := LongestKey(s, m, |s|);
      match ps[0]
      case Lit(c) =>
        assert len == 0;
        GreedyIsStrtr(ps[1..], s[1..], m);
        assert s == [c] + s[1..];
      case Key(k) =>
        assert s[..|k|] == k;
        assert len == |k|;
        GreedyIsStrtr(ps[1..], s[|k|..], m);
        assert s == k + s[|k|..];
    }
  }

  /** The parse Strtr follows. */
  function Tokenize(s: string, m: map<string, string>): seq<Piece>
    decreases |s|
  {
    if s == [] then []
    else
      var len := LongestKey(s, m, |s|);
      if len == 0 then [Lit(s[0])] + Tokenize(s[1..], m)
      else [Key(s[..len])] + Tokenize(s[len..], m)
  }

  /** Every input has a greedy parse. */
  lemma {:induction false} TokenizeIsGreedy(s: string, m: map<string, string>)
    ensures Greedy(Tokenize(s, m), s, m)
    decreases |s|
  {
    if s != [] {
      var len := LongestKey(s, m, |s|);
      var ps := Tokenize(s, m);
      if len == 0 {
        TokenizeIsGreedy(s[1..], m);
        assert ps[1..] == Tokenize(s[1..], m);
      } else {
        TokenizeIsGreedy(s[len..], m);
        assert ps[1..] == Tokenize(s[len..], m);
        assert s[..len] <= s;
      }
    }
  }

  /** The greedy parse of an input is unique. */
  lemma {:induction false} GreedyUnique(ps: seq<Piece>, qs: seq<Piece>, s: string, m: map<string, string>)
    requires Greedy(ps, s, m) && Greedy(qs, s, m)
    ensures ps == qs
    decreases |ps|
  {
    if ps == [] || qs == [] {
      assert s == [];
    } else {
      FirstPieceIsLongest(ps[0], s, m);
      FirstPieceIsLongest(qs[0], s, m);
      assert ps[0] == qs[0];
      var n := PieceSize(ps[0]);
      GreedyUnique(ps[1..], qs[1..], s[n..], m);
      assert ps == [ps[0]] + ps[1..] && qs == [qs[0]] + qs[1..];
    }
  }

  /** How many input characters a piece stands for. */
  function PieceSize(p: Piece): nat {
    match p
    case Lit(_) => 1
    case Key(k) => |k|
  }

  /** `p` may start a greedy parse of `s`. */
  ghost predicate FirstPiece(p: Piece, s: string, m: map<string, string>) {
    match p
    case Lit(c) => s != [] && s[0] == c && NoKeyAt(s, m)
    case Key(k) => k != [] && k in m && k <= s && NoLongerKey(s, m, |k|)
  }

  /** The first piece of a greedy parse is determined by the input: the
      longest key at the front, or else the first character. */
  lemma FirstPieceIsLongest(p: Piece, s: string, m: map<string, string>)
    requires FirstPiece(p, s, m)
    ensures s != [] && PieceSize(p) <= |s|
    ensures LongestKey(s, m, |s|) == 0 ==> p == Lit(s[0])
    ensures LongestKey(s, m, |s|) > 0 ==> p == Key(s[..LongestKey(s, m, |s|)])
  {
    match p
    case Lit(c) =>
    case Key(k) =>
      assert s[..|k|] == k;
  }

  // ---------------------------------------------------------------------
  // Facts the renderers use.

  /** Every key of `m` is a non-empty string starting with '@', as the
      `@field` placeholder maps of the engine are. */
  ghost predicate AtKeys(m: map<string, string>) {
    forall k :: k in m ==> k != [] && k[0] == '@'
  }

  /** A key standing alone is replaced by its value, and that value is not
      scanned again even when it contains keys itself. */
  lemma StrtrWholeKey(k: string, m: map<string, string>)
    requires k != [] && k in m
    ensures Strtr(k, m) == m[k]
  {
    assert k[..|k|] == k;
    assert k[|k|..] == [];
  }

  /** With '@'-keys only, a text without '@' passes through unchanged. */
  lemma {:induction false} StrtrPlain(s: string, m: map<string, string>)
    requires AtKeys(m)
    requires forall i :: 0 <= i < |s| ==> s[i] != '@'
    ensures Strtr(s, m) == s
    decreases |s|
  {
    if s != [] {
      forall l | 1 <= l <= |s|
        ensures s[..l] !in m
      {
        assert s[..l][0] == s[0];
      }
      StrtrPlain(s[1..], m);
      assert s == [s[0]] + s[1..];
    }
  }

  /** A '@'-placeholder none of whose non-empty prefixes is a key of `m`
      passes through unchanged. */
  lemma StrtrUnkeyed(s: string, m: map<string, string>)
    requires AtKeys(m)
    requires s != [] && s[0] == '@'
    requires forall i :: 1 <= i < |s| ==> s[i] != '@'
    requires NoKeyAt(s, m)
    ensures Strtr(s, m) == s
  {
    StrtrPlain(s[1..], m);
    assert s == [s[0]] + s[1..];
  }
}

=== FILE: templates.dfy ===
/** What the four string renderers share: how a record becomes its
    `@field` substitution map, its selected/disabled markers, and a few
    facts about plain templates. */
module Templates {
  import opened PhpValues
  import opened Records
  import opened Substitution

  /** A record's `@field` substitution map after the renderer has merged
      its own fields over the record's (`array_merge`, later wins). */
  function Fields(row: map<string, string>, extra: map<string, string>): (sub: map<string, string>)
    ensures AtKeys(sub)
    ensures forall f :: f in extra ==> "@" + f in sub && sub["@" + f] == extra[f]
    ensures forall f :: f in row && f !in extra ==> "@" + f in sub && sub["@" + f] == row[f]
    ensures forall f :: "@" + f in sub ==> f in row || f in extra
  {
    Placeholders(row + extra)
  }

  /** The identifier a rendered record is marked by. */
  function IdOf(k: Record): int {
    if k.id.Some? then k.id.value else 0
  }

  /** The `selected` and `disabled` markers of a record. */
  function Marks(sel: IdArg, dis: IdArg, id: int, guarded: bool): (m: map<string, string>)
    ensures "selected" in m && (m["selected"] != "" <==> Flag(sel, id, guarded))
    ensures "disabled" in m && (m["disabled"] != "" <==> Flag(dis, id, guarded))
    ensures m.Keys == {"selected", "disabled"}
  {
    map["selected" := Marker(sel, id, guarded, "selected"), "disabled" := Marker(dis, id, guarded, "disabled")]
  }

  /** `n` copies of `s`. */
  function Repeat(s: string, n: nat): string {
    if n == 0 then "" else s + Repeat(s, n - 1)
  }

  lemma {:induction false} RepeatAdd(s: string, a: nat, b: nat)
    ensures Repeat(s, a) + Repeat(s, b) == Repeat(s, a + b)
    decreases a
  {
    if a > 0 {
      RepeatAdd(s, a - 1, b);
    }
  }

  /** A text without '@'. */
  predicate Plain(s: string) {
    '@' !in s
  }

  lemma RepeatStep(s: string, whole: string, item: string, x: string, y: string, a: nat, b: nat, c: nat)
    requires whole == item + x + y && item == s
    requires x == Repeat(s, a) && y == Repeat(s, b) && c == 1 + a + b
    ensures whole == Repeat(s, c)
  {
    RepeatAdd(s, a, b);
  }

  /** The placeholders of the renderer's own fields. */
  lemma AtNames()
    ensures "@" + "selected" == "@selected" && "@" + "disabled" == "@disabled" && "@" + "spacer" == "@spacer"
    ensures "@" + "url" == "@url" && "@" + "badge" == "@badge"
  {
  }
}

=== FILE: tree_array.dfy ===
/** The tree-array builder and its flattening (src/FastTree.php,
    getTreeArray and getTreeList). */
module TreeArray {
  import opened PhpValues
  import opened Records
  import opened Lookup
  import opened Connectors
  import opened Closure

  /** One entry of getTreeArray's result: the child record, its computed
      `spacer`, and its own children under `childList`. */
  datatype TreeNode = TreeNode(rec: Record, spacer: string, childList: seq<TreeNode>)

  /** The children of `x` as a nested array, one entry per child getChild
      returns (see `TreeArrayEntries` for what each entry holds). */
  function GetTreeArray(t: FastTree, x: int, prefix: string): (nodes: seq<TreeNode>)
    requires Acyclic(t.data)
    ensures |nodes| == |GetChild(t.data, x)|
    decreases Rank(t.data)(x), 1, 0
  {
    ArrayFrom(t, x, GetChild(t.data, x), prefix)
  }

  /** The entries for the siblings `kids`, which end the child list of `x`. */
  function ArrayFrom(t: FastTree, x: int, kids: seq<Record>, prefix: string): (nodes: seq<TreeNode>)
    requires Acyclic(t.data)
    requires forall k :: k in kids ==> k in t.data && IsChildOf(k, x)
    ensures |nodes| == |kids|
    decreases Rank(t.data)(x), 0, |kids|
  {
    if kids == [] then []
    else
      var last := |kids| == 1;
      var k := kids[0];
      ChildBelow(t.data, k, x);
      [TreeNode(k, Spacer(t, prefix, last), GetTreeArray(t, k.id.value, ChildPrefix(t, prefix, last)))]
      + ArrayFrom(t, x, kids[1..], prefix)
  }

  /** The first sibling's entry, followed by the entries of the others. */
  lemma ArrayFromCons(t: FastTree, x: int, kids: seq<Record>, prefix: string)
    requires Acyclic(t.data)
    requires forall k :: k in kids ==> k in t.data && IsChildOf(k, x)
    requires kids != []
    ensures forall k :: k in kids[1..] ==> k in t.data && IsChildOf(k, x)
    ensures kids[0] in t.data && IsChildOf(kids[0], x)
    ensures ArrayFrom(t, x, kids, prefix)
         == [TreeNode(kids[0], Spacer(t, prefix, |kids| == 1),
                      GetTreeArray(t, kids[0].id.value, ChildPrefix(t, prefix, |kids| == 1)))]
            + ArrayFrom(t, x, kids[1..], prefix)
  {
    assert kids[0] in kids;
    assert forall k :: k in kids[1..] ==> k in kids;
  }

  lemma {:induction false} ArrayFromEntries(t: FastTree, x: int, kids: seq<Record>, prefix: string)
    requires Acyclic(t.data)
    requires forall k :: k in kids ==> k in t.data && IsChildOf(k, x)
    ensures forall i :: 0 <= i < |kids| ==>
              && ArrayFrom(t, x, kids, prefix)[i].rec == kids[i]
              && ArrayFrom(t, x, kids, prefix)[i].spacer == Spacer(t, prefix, i == |kids| - 1)
              && kids[i].id.Some?
              && ArrayFrom(t, x, kids, prefix)[i].childList
                 == GetTreeArray(t, kids[i].id.value, ChildPrefix(t, prefix, i == |kids| - 1))
    decreases |kids|
  {
    if kids != [] {
      ArrayFromCons(t, x, kids, prefix);
      ArrayFromEntries(t, x, kids[1..], prefix);
      var nodes := ArrayFrom(t, x, kids, prefix);
      var rest := ArrayFrom(t, x, kids[1..], prefix);
      forall i | 0 <= i < |kids|
        ensures && nodes[i].rec == kids[i]
                && nodes[i].spacer == Spacer(t, prefix, i == |kids| - 1)
                && kids[i].id.Some?
                && nodes[i].childList == GetTreeArray(t, kids[i].id.value, ChildPrefix(t, prefix, i == |kids| - 1))
      {
        if i > 0 {
          assert nodes[i] == rest[i - 1] && kids[i] == kids[1..][i - 1];
          assert (i - 1 == |kids[1..]| - 1) == (i == |kids| - 1);
        }
      }
    }
  }

  /** Entry i holds the child getChild returns at position i; its spacer
      is empty under a PHP-false prefix, the prefix and the corner glyph
      for the last child, the prefix and the branch glyph for the others;
      and its `childList` is the tree array of that child under the prefix
      it hands down: the prefix plus the spacer token under a PHP-false
      prefix, the prefix plus two spacer tokens under the last child, the
      prefix plus the vertical glyph and the spacer token under any other. */
  lemma TreeArrayEntries(t: FastTree, x: int, prefix: string)
    requires Acyclic(t.data)
    ensures var nodes := GetTreeArray(t, x, prefix);
      forall i :: 0 <= i < |nodes| ==>
        && nodes[i].rec == GetChild(t.data, x)[i]
        && nodes[i].spacer == (if !Truthy(prefix) then ""
                               else if i == |nodes| - 1 then prefix + t.icon.corner
                               else prefix + t.icon.branch)
        && nodes[i].rec.id.Some?
        && nodes[i].childList
           == GetTreeArray(t, nodes[i].rec.id.value,
                           if !Truthy(prefix) then prefix + t.nbsp
                           else if i == |nodes| - 1 then prefix + t.nbsp + t.nbsp
                           else prefix + t.icon.vertical + t.nbsp)
  {
    ArrayFromEntries(t, x, GetChild(t.data, x), prefix);
  }

  /** Every spacer in the forest, at any depth, starts with `p`. */
  ghost predicate SpacersExtend(nodes: seq<TreeNode>, p: string)
    decreases nodes
  {
    forall i :: 0 <= i < |nodes| ==> p <= nodes[i].spacer && SpacersExtend(nodes[i].childList, p)
  }

  lemma {:induction false} ArrayFromIndents(t: FastTree, x: int, kids: seq<Record>, prefix: string)
    requires Acyclic(t.data)
    requires forall k :: k in kids ==> k in t.data && IsChildOf(k, x)
    requires Truthy(prefix)
    ensures SpacersExtend(ArrayFrom(t, x, kids, prefix), prefix)
    ensures forall i :: 0 <= i < |kids| ==>
              SpacersExtend(ArrayFrom(t, x, kids, prefix)[i].childList, ChildPrefix(t, prefix, i == |kids| - 1))
    decreases Rank(t.data)(x), |kids|
  {
    if kids != [] {
      ArrayFromCons(t, x, kids, prefix);
      var nodes := ArrayFrom(t, x, kids, prefix);
      var last := |kids| == 1;
      var k := kids[0];
      ChildBelow(t.data, k, x);
      var cp := ChildPrefix(t, prefix, last);
      ChildPrefixGrows(t, prefix, last);
      ArrayFromIndents(t, k.id.value, GetChild(t.data, k.id.value), cp);
      ArrayFromIndents(t, x, kids[1..], prefix);
      var rest := ArrayFrom(t, x, kids[1..], prefix);
      assert nodes[0].spacer == Spacer(t, prefix, last);
      SpacersWeaken(nodes[0].childList, cp, prefix);
      forall i | 0 <= i < |nodes|
        ensures prefix <= nodes[i].spacer && SpacersExtend(nodes[i].childList, prefix)
      {
        if i > 0 { assert nodes[i] == rest[i - 1]; }
      }
      forall i | 0 <= i < |kids|
        ensures SpacersExtend(nodes[i].childList, ChildPrefix(t, prefix, i == |kids| - 1))
      {
        if i > 0 { assert nodes[i] == rest[i - 1]; }
      }
    }
  }

  lemma {:induction false} SpacersWeaken(nodes: seq<TreeNode>, p: string, q: string)
    requires SpacersExtend(nodes, p) && q <= p
    ensures SpacersExtend(nodes, q)
    decreases nodes
  {
    forall i | 0 <= i < |nodes|
      ensures q <= nodes[i].spacer && SpacersExtend(nodes[i].childList, q)
    {
      SpacersWeaken(nodes[i].childList, p, q);
    }
  }

  /** Indentation only grows with depth: under a PHP-true prefix every
      spacer of the tree array starts with that prefix, and every spacer
      below the i-th child starts with the prefix that child hands down
      (the prefix plus the spacer token under the last sibling, plus the
      vertical glyph under any other, plus the spacer token). */
  lemma TreeArrayIndents(t: FastTree, x: int, prefix: string)
    requires Acyclic(t.data)
    requires Truthy(prefix)
    ensures SpacersExtend(GetTreeArray(t, x, prefix), prefix)
    ensures forall i :: 0 <= i < |GetTreeArray(t, x, prefix)| ==>
              SpacersExtend(GetTreeArray(t, x, prefix)[i].childList,
                            ChildPrefix(t, prefix, i == |GetTreeArray(t, x, prefix)| - 1))
  {
    ArrayFromIndents(t, x, GetChild(t.data, x), prefix);
  }

  /** Number of entries of a nested array, at every depth. */
  function Count(nodes: seq<TreeNode>): nat
    decreases nodes
  {
    if nodes == [] then 0
    else 1 + Count(nodes[0].childList) + Count(nodes[1..])
  }

  // ---------------------------------------------------------------------
  // Flattening

  /** One flattened row: the record as text, with `spacer`, without
      `childList`, with `field` rewritten to spacer + ' ' + its old value,
      and with `hasChild` ("1" or "0"). */
  function ListRow(t: FastTree, n: TreeNode, field: string): (v: map<string, string>)
    ensures "hasChild" in v && (v["hasChild"] == "1" <==> n.childList != [])
    ensures v["hasChild"] == "1" || v["hasChild"] == "0"
    ensures field != "hasChild" ==>
              field in v && v[field] == n.spacer + " " + Get((Row(n.rec, t.pidName)["spacer" := n.spacer]) - {"childList"}, field)
    ensures forall k :: k in Row(n.rec, t.pidName) && k != field && k != "spacer" && k != "hasChild" && k != "childList"
              ==> k in v && v[k] == Row(n.rec, t.pidName)[k]
    ensures field != "childList" ==> "childList" !in v
    ensures field != "id" ==> Get(v, "id") == Get(Row(n.rec, t.pidName), "id")
  {
    var v := (Row(n.rec, t.pidName)["spacer" := n.spacer]) - {"childList"};
    var v := v[field := Get(v, "spacer") + " " + Get(v, field)];
    v["hasChild" := if n.childList != [] then "1" else "0"]
  }

  /** getTreeList: each entry's row, kept only when its `id` is PHP-true,
      followed at once by its own flattened children (whether or not the
      entry itself was kept), then the following siblings. */
  function GetTreeList(t: FastTree, nodes: seq<TreeNode>, field: string): seq<map<string, string>>
    decreases nodes
  {
    if nodes == [] then []
    else
      Emit(t, nodes[0], field)
      + GetTreeList(t, nodes[0].childList, field)
      + GetTreeList(t, nodes[1..], field)
  }

  /** The entry's own row, when its `id` is PHP-true; nothing otherwise. */
  function Emit(t: FastTree, n: TreeNode, field: string): seq<map<string, string>> {
    var v := ListRow(t, n, field);
    if Truthy(Get(v, "id")) then [v] else []
  }

  /** Every entry, at every depth, carries a non-zero identifier. */
  ghost predicate AllIdsNonZero(nodes: seq<TreeNode>)
    decreases nodes
  {
    forall i :: 0 <= i < |nodes| ==>
      nodes[i].rec.id.Some? && nodes[i].rec.id.value != 0 && AllIdsNonZero(nodes[i].childList)
  }

  /** Rewriting `id` itself puts a space in it, so the rewritten value is
      always PHP-true and the entry is always emitted. */
  lemma IdFieldEmitted(t: FastTree, n: TreeNode)
    ensures |Emit(t, n, "id")| == 1
  {
    var v := ListRow(t, n, "id");
    var w := v["id"];
    assert w == n.spacer + " " + Get((Row(n.rec, t.pidName)["spacer" := n.spacer]) - {"childList"}, "id");
    assert w[|n.spacer|] == ' ';
    assert Truthy(Get(v, "id"));
  }

  /** When every identifier is non-zero, flattening drops nothing: one row
      per entry at every depth (for any `field`, `id` included). */
  lemma {:induction false} TreeListLength(t: FastTree, nodes: seq<TreeNode>, field: string)
    requires AllIdsNonZero(nodes)
    ensures |GetTreeList(t, nodes, field)| == Count(nodes)
    decreases nodes
  {
    if nodes != [] {
      var n := nodes[0];
      if field == "id" {
        IdFieldEmitted(t, n);
      } else {
        TruthyIntToString(n.rec.id.value);
      }
      assert |Emit(t, n, field)| == 1;
      TreeListLength(t, n.childList, field);
      assert AllIdsNonZero(nodes[1..]) by {
        forall i | 0 <= i < |nodes[1..]| ensures nodes[1..][i] == nodes[i + 1] { }
      }
      TreeListLength(t, nodes[1..], field);
    }
  }

  /** An entry whose identifier is missing or 0 is not emitted, but its
      children still are, in its place. */
  lemma TreeListSkipsFalsyId(t: FastTree, n: TreeNode, rest: seq<TreeNode>, field: string)
    requires field != "id" && t.pidName != "id"
    requires n.rec.id.None? || n.rec.id == Some(0)
    ensures GetTreeList(t, [n] + rest, field) == GetTreeList(t, n.childList, field) + GetTreeList(t, rest, field)
  {
    FalsyIdNotEmitted(t, n, field);
    TreeListCons(t, n, rest, field);
    assert [] + GetTreeList(t, n.childList, field) == GetTreeList(t, n.childList, field);
  }

  lemma TreeListCons(t: FastTree, n: TreeNode, rest: seq<TreeNode>, field: string)
    ensures GetTreeList(t, [n] + rest, field)
         == Emit(t, n, field) + GetTreeList(t, n.childList, field) + GetTreeList(t, rest, field)
  {
    assert ([n] + rest)[0] == n && ([n] + rest)[1..] == rest;
  }

  lemma FalsyIdNotEmitted(t: FastTree, n: TreeNode, field: string)
    requires field != "id" && t.pidName != "id"
    requires n.rec.id.None? || n.rec.id == Some(0)
    ensures Emit(t, n, field) == []
  {
    assert !Truthy(Get(Row(n.rec, t.pidName), "id"));
  }

  // ---------------------------------------------------------------------
  // Agreement with getChildren

  /** The `id` column of a list of rows. */
  function IdColumn(rows: seq<map<string, string>>): (c: seq<string>)
    ensures |c| == |rows|
    decreases |rows|
  {
    if rows == [] then [] else [Get(rows[0], "id")] + IdColumn(rows[1..])
  }

  lemma {:induction false} IdColumnAppend(a: seq<map<string, string>>, b: seq<map<string, string>>)
    ensures IdColumn(a + b) == IdColumn(a) + IdColumn(b)
    decreases |a|
  {
    if a == [] {
      assert a + b == b;
    } else {
      IdColumnAppend(a[1..], b);
      assert (a + b)[1..] == a[1..] + b;
      assert IdColumn(a + b) == [Get(a[0], "id")] + IdColumn(a[1..] + b);
    }
  }

  /** The identifiers of a list of records, printed as text. */
  function IdTexts(rs: seq<Record>): (c: seq<string>)
    ensures |c| == |rs|
    decreases |rs|
  {
    if rs == [] then []
    else [if rs[0].id.Some? then IntToString(rs[0].id.value) else ""] + IdTexts(rs[1..])
  }

  lemma {:induction false} IdTextsAppend(a: seq<Record>, b: seq<Record>)
    ensures IdTexts(a + b) == IdTexts(a) + IdTexts(b)
    decreases |a|
  {
    if a == [] {
      assert a + b == b;
    } else {
      IdTextsAppend(a[1..], b);
      assert (a + b)[1..] == a[1..] + b;
      var h := if a[0].id.Some? then IntToString(a[0].id.value) else "";
      assert IdTexts(a + b) == [h] + IdTexts(a[1..] + b);
      assert IdTexts(a) == [h] + IdTexts(a[1..]);
    }
  }

  lemma {:induction false} ArrayFromCount(t: FastTree, x: int, kids: seq<Record>, prefix: string)
    requires Acyclic(t.data) && UniqueIds(t.data)
    requires forall k :: k in kids ==> k in t.data && IsChildOf(k, x)
    ensures Count(ArrayFrom(t, x, kids, prefix)) == |Descend(t.data, kids)|
    decreases Rank(t.data)(x), |kids|
  {
    if kids != [] {
      var k := kids[0];
      var last := |kids| == 1;
      ChildBelow(t.data, k, x);
      var cp := ChildPrefix(t, prefix, last);
      ArrayFromCons(t, x, kids, prefix);
      var nodes := ArrayFrom(t, x, kids, prefix);
      assert nodes[0].childList == GetTreeArray(t, k.id.value, cp);
      assert nodes[1..] == ArrayFrom(t, x, kids[1..], prefix);
      ArrayFromCount(t, k.id.value, GetChild(t.data, k.id.value), cp);
      ChildrenViaGetChild(t.data, k.id.value);
      ArrayFromCount(t, x, kids[1..], prefix);
    }
  }

  /** With unique identifiers (some may be 0 or missing), the tree array
      holds one entry, at some depth, per record getChildren returns. */
  lemma TreeArrayCount(t: FastTree, x: int, prefix: string)
    requires Acyclic(t.data) && UniqueIds(t.data)
    ensures Count(GetTreeArray(t, x, prefix)) == |GetChildren(t.data, x, false)|
  {
    ArrayFromCount(t, x, GetChild(t.data, x), prefix);
    ChildrenViaGetChild(t.data, x);
  }

  lemma {:induction false} ArrayFromPreorder(t: FastTree, x: int, kids: seq<Record>, prefix: string, field: string)
    requires Acyclic(t.data) && UniqueIds(t.data) && NonZeroIds(t.data)
    requires field != "id"
    requires forall k :: k in kids ==> k in t.data && IsChildOf(k, x)
    ensures IdColumn(GetTreeList(t, ArrayFrom(t, x, kids, prefix), field)) == IdTexts(Descend(t.data, kids))
    decreases Rank(t.data)(x), |kids|
  {
    if kids != [] {
      var k := kids[0];
      var last := |kids| == 1;
      ChildBelow(t.data, k, x);
      var cp := ChildPrefix(t, prefix, last);
      var nodes := ArrayFrom(t, x, kids, prefix);
      var n := nodes[0];
      var rest := ArrayFrom(t, x, kids[1..], prefix);
      assert nodes[1..] == rest;
      assert n.childList == GetTreeArray(t, k.id.value, cp);
      ArrayFromPreorder(t, k.id.value, GetChild(t.data, k.id.value), cp, field);
      ChildrenViaGetChild(t.data, k.id.value);
      ArrayFromPreorder(t, x, kids[1..], prefix, field);
      TruthyIntToString(k.id.value);
      assert Emit(t, n, field) == [ListRow(t, n, field)];
      var sub := GetTreeList(t, n.childList, field);
      var tail := GetTreeList(t, rest, field);
      IdColumnAppend([ListRow(t, n, field)] + sub, tail);
      IdColumnAppend([ListRow(t, n, field)], sub);
      var below := GetChildren(t.data, k.id.value, false);
      var after := Descend(t.data, kids[1..]);
      IdTextsAppend([k] + below, after);
      IdTextsAppend([k], below);
    }
  }

  /** Flattening the tree array yields, in order, exactly the identifiers
      getChildren returns for the same node (given unique, non-zero
      identifiers, and a `field` other than `id`), and the tree array has
      one entry per descendant. */
  lemma TreeListIsPreorder(t: FastTree, x: int, prefix: string, field: string)
    requires Acyclic(t.data) && UniqueIds(t.data) && NonZeroIds(t.data)
    requires field != "id"
    ensures IdColumn(GetTreeList(t, GetTreeArray(t, x, prefix), field)) == IdTexts(GetChildren(t.data, x, false))
    ensures Count(GetTreeArray(t, x, prefix)) == |GetChildren(t.data, x, false)|
  {
    ArrayFromPreorder(t, x, GetChild(t.data, x), prefix, field);
    ChildrenViaGetChild(t.data, x);
    TreeArrayCount(t, x, prefix);
  }
}
